=== FILE: README.md ===
# mu editor core logic, modelled in Dafny

This project models the non-graphical core of the mu editor's `mu/logic.py`:

- **Board discovery.** The table of supported USB vendor/product identifiers and `find_microbit`, which picks the first serial port of a known board.
- **Code-quality aggregation.**
  - `MuFlakeCodeReporter` turns pyflakes callbacks into records.
  - `check_flake` expands `from microbit import *` before analysis. While that import is present it then drops every `'microbit.<word>' imported but unused` message, whether or not the expansion caused it, and groups the remaining records by line.
  - `check_pycodestyle` parses pycodestyle's printed output into records grouped by line.
  - The three regular expressions `STYLE_REGEX`, `FLAKE_REGEX` and `EXPAND_FALSE_POSITIVE` are written out as string functions with Python `re` semantics. These include greedy backtracking of the leading `.*` and `$` matching before a final newline.
- **The serial session.** `REPL.__init__` port naming, and the editor's `add_fs`, `remove_fs`, `toggle_fs`, `add_repl`, `remove_repl` and `toggle_repl`. These are steps on the two fields `repl` and `fs`, which are never both set.
- **Flashing.** `Editor.flash`: the 8192-byte limit on the UTF-8 script, mount-point resolution (detected, then remembered, then asked), and the stale-path check before flashing.

Modules, one per file:

| file | module | contents |
|---|---|---|
| wrappers.dfy | `Wrappers` | `Option`, `Result` |
| text.dfy | `Text` | Python string built-ins: `\d`, `\s`, `\w`, `int`/`str` on digits, `split`, `join`, `in`, `replace`, `capitalize` |
| patterns.dfy | `Patterns` | the three regular expressions |
| expansion.dfy | `Expansion` | the wildcard import and its expansion text |
| diagnostics.dfy | `Diagnostics` | reporter records, the false-positive guard, grouping by line, the style-line parse |
| checks.dfy | `Checks` | `check_flake` and the parse loop of `check_pycodestyle` as methods with loops |
| readback.dfy | `Readback` | analyser output lines read back into the records they describe |
| boards.dfy | `Boards` | `BOARD_IDS`, `find_microbit` |
| session.dfy | `SerialSession` | REPL port naming, add/remove/toggle of REPL and file system |
| flashing.dfy | `Flashing` | `Editor.flash` |

Collaborators the source calls are passed in as inputs:

- **Pyflakes** is a function from source text to the sequence of reporter callbacks it makes.
- **Pycodestyle** is its printed output.
- **The device** is whether `microfs.get_serial` answers, the list of serial ports, `os.name`, and how the view reacts to `add_repl`.
- **For flashing**, the inputs are:
  - the mount point `uflash.find_microbit` detects;
  - the user's answer to the path prompt;
  - which paths exist;
  - the runtime path.

Behaviour of `mu/logic.py` worth noting:

- **False-positive filter.** While the wildcard import is present, `check_flake` drops every `'microbit.<name>' imported but unused` message. The filter pattern checks no list of names, so a genuinely unused `microbit.<name>` import is dropped too.
- **Style-line parsing.** A pycodestyle line that does not match `STYLE_REGEX` is skipped. A line that matches but whose message has no space makes `msg.split(' ', 1)` raise `ValueError`, which aborts the whole parse (`Checks.NotEnoughValuesToUnpack`).
- **Mutual exclusion.**
  - `add_repl` raises `RuntimeError` when the file system is active.
  - `add_fs` does nothing at all when a REPL is active.
  - Only the two toggles show the conflict message.
- **Unsupported platform.** Inside `add_repl`, the `NotImplementedError` for an unsupported platform is caught by the generic handler and only logged. It is not fatal.
- **Merging.** `mu/logic.py` has no merge of the two analysers' results. The two checks are modelled separately.

## Model

| member | source | states |
|---|---|---|
| Boards.FindBoard | mu/logic.py:81-101 | no result exactly when no port has a supported vendor/product pair; otherwise the name of the first port that has one |
| Boards.FindBoardAppend | mu/logic.py:87-94 | ports are scanned in order: a supported port earlier in the list wins over any later one |
| Boards.KnownBoardFound | mu/logic.py:45-52 | every listed vendor/product pair is recognised |
| Boards.UnknownPortsIgnored | mu/logic.py:87-91 | a port with an unsupported pair placed in front of the others never changes the answer (with `Boards.FindBoardAppend`, at any position) |
| Boards.SupportedBoards | mu/logic.py:45-52 | six distinct boards are supported: the micro:bit pair and five pairs of the Adafruit vendor 0x239A |
| Diagnostics.Record | mu/logic.py:281-328 | unexpected errors are on line 0 with their file name and message; syntax errors get the fixed message with line and column made 0-based; flake findings have column 0; a message `FLAKE_REGEX` matches is recorded on its line group minus one with the message group as text, and any other message is kept whole on line 0 |
| Diagnostics.ReplayLog | mu/logic.py:275-328 | the log holds exactly one record per callback, in callback order |
| Readback.FlakeRecordReadsBack | mu/logic.py:315-322 | a message printed as `file:line: text` is recorded on line `line - 1`, column 0, with exactly `text`, for every newline-free `text` that does not start with white space and holds no `:digits: ` sequence of its own (colons elsewhere in it are allowed) |
| Readback.FlakeRecordWithoutLocation | mu/logic.py:323-328 | a message without a colon is recorded whole on line 0 |
| Patterns.FieldsMatchText | mu/logic.py:64-66 | any newline-free prefix followed by digit fields and a plain trailing text is matched with exactly those groups, when the trailing text offers no later match start |
| Patterns.StyleMatch | mu/logic.py:64 | a match has exactly two groups of digits (line and column) and a trailing message without newline |
| Patterns.FlakeMatch | mu/logic.py:66 | a match has exactly one group of digits (the line) and a trailing message without newline |
| Patterns.FieldsMatchAt | mu/logic.py:64-66 | any matching `:` start before the first newline, with no later matching start before that newline, is the match taken: the greedy `.*` stops at the rightmost one |
| Patterns.FieldsMatchNone | mu/logic.py:64-66 | there is no match exactly when no `:` start before the first newline is followed by the fields |
| Patterns.IsFalsePositive | mu/logic.py:68 | a message is a false positive exactly when it is the unused-import message about a non-empty word-character name of `microbit`, possibly followed by one newline |
| Patterns.UnusedMicrobitNameIsFalsePositive | mu/logic.py:68 | the expression matches every unused-import message about a word-character name of `microbit`, with or without a final newline |
| Patterns.FalsePositiveShape | mu/logic.py:68 | conversely, every text the expression matches is such a message |
| Patterns.OtherModuleIsNotFalsePositive | mu/logic.py:68 | the expression rejects three sample messages: one about module `os`, one with an empty name after `microbit.` and one with a trailing full stop |
| Expansion.ExpansionNamesTheModule | mu/logic.py:70-75 | the expansion is longer than the wildcard import and is the same `from microbit import ` statement up to the `*` |
| Expansion.ExpandedImportHasNoStar | mu/logic.py:70-75 | the expansion text contains no `*` |
| Text.ReplaceAllRemoves | mu/logic.py:203 | replacing every occurrence leaves none when the two texts cannot overlap at their ends |
| Text.ReplaceAllInserts | mu/logic.py:203 | replacing a text that occurs puts the replacement into the result |
| Text.ReplaceAllOne | mu/logic.py:203 | a single occurrence of a text whose last character appears nowhere else in it (as in `from microbit import *`) is replaced where it stands and nothing else changes |
| Diagnostics.FlakeSource | mu/logic.py:199-203 | the code pyflakes sees never contains the wildcard import; code without it is passed on unchanged, and code with it contains the expansion |
| Diagnostics.FlakeSourceOne | mu/logic.py:199-203 | a single wildcard import is replaced where it stands by the expansion, and the code around it is kept |
| Diagnostics.Retained | mu/logic.py:207-212 | without the wildcard import every record is kept; the guard never adds records |
| Diagnostics.RetainedMembers | mu/logic.py:207-212 | a record survives the guard exactly when it was logged and is not (wildcard present and message a false positive) |
| Diagnostics.SuppressionScenario | mu/logic.py:207-212 | with the wildcard present an unused microbit name is dropped while an unused `os` is kept; without it both are kept |
| Diagnostics.GroupByLine | mu/logic.py:213-215 | a line is only ever a key with at least one record on it |
| Diagnostics.GroupByLineSpec | mu/logic.py:213-215 | the keys are exactly the records' line numbers and each list holds that line's records in order |
| Diagnostics.RetainedKeys | mu/logic.py:206-215 | a line is a key exactly when some kept record lies on it |
| Checks.GroupKept | mu/logic.py:206-216 | the loop builds the grouping of the kept records |
| Checks.CheckFlake | mu/logic.py:192-216 | the feedback is the grouping, by line, of the kept records of the reporter log produced on the expanded code |
| Diagnostics.StyleLine | mu/logic.py:251-265 | a line is skipped exactly when `STYLE_REGEX` does not match it; it is malformed exactly when it matches and the message has no space; otherwise it gives a style record whose code has no space |
| Readback.StyleLineReadsBack | mu/logic.py:250-265 | a line printed as `file:line:column: CODE description` gives a record on `line - 1`, `column - 1`, with that code and the capitalized (E303-extended) description, for every newline-free description such that `CODE description` holds no `:digits:digits: ` sequence of its own (colons elsewhere are allowed) |
| Readback.BlankLinesFinding | mu/logic.py:256-257 | an E303 finding's message says the blank lines are above the line, under the same condition on the description |
| Readback.StyleLineWithoutDescription | mu/logic.py:253-255 | a matched line whose message is a single word is malformed |
| Diagnostics.RecordsMembers | mu/logic.py:252-265 | exactly the parsed lines contribute records, and no more records than lines |
| Checks.GroupParses | mu/logic.py:249-266 | the parse fails exactly when some line is malformed; otherwise it groups the parsed records by line in order |
| Checks.ParseStyle | mu/logic.py:249-266 | the same for pycodestyle's output split at newlines |
| Text.JoinSplit | mu/logic.py:250 | the lines of the output joined back give the output |
| Text.SplitPieces | mu/logic.py:250 | no line of `results.split('\n')` holds a newline |
| Diagnostics.OutputParses | mu/logic.py:250-255 | the parse loop classifies each line of the output, one result per line, and every line it classifies is free of newlines |
| Text.SplitJoin | mu/logic.py:250 | splitting newline-free lines joined by newlines gives those lines |
| Text.DecimalRoundTrip | mu/logic.py:254 | `int` reads a printed number back as that number |
| SerialSession.ReplPort | mu/logic.py:339-348 | POSIX ports are `/dev/` + name, Windows ports the name itself, and any other platform is refused |
| SerialSession.ReplPortInjective | mu/logic.py:340-345 | different ports never get the same REPL port |
| SerialSession.AddFs | mu/logic.py:472-491 | the REPL is untouched; the file system becomes active exactly when it was, or no REPL is open and a device answers; with a REPL open nothing at all happens |
| SerialSession.RemoveFs | mu/logic.py:493-501 | raises exactly when no file system is active, and otherwise clears only it |
| SerialSession.ToggleFs | mu/logic.py:503-518 | never raises; with a REPL open the state is unchanged and the conflict is shown; otherwise the file system flips, and turning it on needs a device |
| SerialSession.AddRepl | mu/logic.py:520-551 | raises exactly when the file system or a REPL is active; otherwise a REPL is recorded exactly when a board is found, the platform is supported and the view raises no I/O error, on that board's port |
| SerialSession.RemoveRepl | mu/logic.py:553-560 | raises exactly when no REPL is open, and otherwise clears only it |
| SerialSession.ToggleRepl | mu/logic.py:562-577 | never raises; with the file system active the state is unchanged and the conflict is shown; otherwise it closes an open REPL or behaves as `add_repl` |
| SerialSession.RunKeepsExclusive | mu/logic.py:472-577 | over any sequence of calls, the REPL and the file system are never active together |
| SerialSession.ConflictsChangeNothing | mu/logic.py:472-577 | starting either side while the other is active leaves the session unchanged |
| SerialSession.TogglesNeverRaise | mu/logic.py:503-577 | toggling never raises |
| SerialSession.ToggleFsTwice | mu/logic.py:503-512 | toggling the file system on and off returns to the idle session |
| SerialSession.ToggleReplTwice | mu/logic.py:562-570 | toggling the REPL on and off returns to the idle session |
| SerialSession.AddReplWithoutBoard | mu/logic.py:530-551 | without a supported board no REPL is opened and the user is told the device is missing |
| Flashing.Utf8Length | mu/logic.py:415 | the encoded size lies between one and four bytes per character |
| Flashing.Resolve | mu/logic.py:425-436 | a detected mount point is used and the remembered path kept; otherwise the path used is also the one remembered afterwards; the user is asked exactly when nothing is detected and no path is remembered, and then the answer is used |
| Flashing.Flash | mu/logic.py:404-470 | nothing without a tab, and only then; too long exactly when the encoded script reaches 8192 bytes; the user is asked exactly when the script fits, nothing is detected and no path is remembered; a script that fits is flashed exactly when the resolved path (detected, else remembered, else answered) is non-empty and exists, and otherwise the device is reported missing and the remembered path forgotten; flashing uses that one path, the script and the runtime, and remembers the answer only when one was asked for; the too-long, flashed and not-found messages are those of the source |
| Flashing.FlashedPathIsResolved | mu/logic.py:425-446 | the flasher gets the detected path, else the remembered one, else the answer |
| Flashing.TooLongIgnoresDevice | mu/logic.py:418-425 | a script that is too long is refused whatever the device state |
| Flashing.SizeBoundary | mu/logic.py:418 | 8191 ASCII characters fit and 8192 do not |
| Flashing.StalePathRecovery | mu/logic.py:425-458 | a stale remembered path is forgotten; the next call asks and remembers the answer; the call after that reuses it without asking |

## Left out

- File and settings I/O, logging, temporary files, stdout redirection and the workspace directory are not modelled. Neither are the other editor operations (tabs, themes, saving, loading, sessions).
- The analysers are not modelled. Pyflakes is a function parameter returning the reporter callbacks it makes. Pycodestyle is represented by its printed output.
- `uflash`, `microfs`, `os.path.exists` and `get_runtime_hex_path` are inputs. `uflash.flash` is represented by the `Flashed` outcome recording its arguments.
- SerialSession: the view is reduced to the `Effect` of each call. The long information texts and the message kinds are replaced by the `Advice` enumeration, while the main message texts are kept.
- Flashing.Flash: the view calls become the `Outcome`, which keeps the main message texts (too long, flashed, device not found). The information texts and the 'Warning'/'Information' message kinds are dropped.
- AddFs: an `IOError` raised by `view.add_filesystem` itself, rather than by `microfs.get_serial`, is not modelled.
- AddRepl: the only exceptions modelled are the unsupported platform and the two kinds of view error; other failures caught by the generic handler are not distinguished.
- Text.IsDigit: `\d` is taken as ASCII digits only, while Python's `re` on `str` also accepts other Unicode decimal digits (and `int` reads them). The same applies to `\w` (Text.IsWordChar) and to Text.Capitalize, which only case-maps ASCII letters.
- Flashing.Utf8Length: Dafny strings cannot hold lone surrogates, so the `UnicodeEncodeError` that `encode('utf-8')` raises for them is not modelled.
- The `merge` of the two analysers' results does not exist in `mu/logic.py` and is not modelled.
- Diagnostics.GroupByLine: a Dafny `map` has no key order, so the insertion order of the line keys, which a Python `dict` keeps, is not modelled; the order of the records within each line is.

=== FILE: boards.dfy ===
/**
 * Serial-port discovery: the USB identities of the supported boards and
 * `find_microbit`, which picks the first port that carries one of them.
 */
module Boards {
  import opened Wrappers

  /** A 16-bit USB identifier. */
  newtype u16 = x: int | 0 <= x < 0x1_0000

  /** What the port enumerator reports for one serial port. */
  datatype SerialPort = SerialPort(name: string, vid: u16, pid: u16)

  /** BOARD_IDS (mu/logic.py:45-52): vendor and product identifiers of the supported boards. */
  const BOARD_IDS: set<(u16, u16)> := {
    (0x0D28, 0x0204),  // micro:bit
    (0x239A, 0x800B),  // Adafruit Feather M0, CDC only
    (0x239A, 0x8016),  // Adafruit Feather M0, CDC and MSC
    (0x239A, 0x8014),  // Metro M0
    (0x239A, 0x8019),  // Circuit Playground M0
    (0x239A, 0x801B)   // Feather M0 Express
  }

  predicate IsKnownBoard(p: SerialPort) {
    (p.vid, p.pid) in BOARD_IDS
  }

  /**
   * `find_microbit`: the name of the first port in enumeration order whose
   * identity is known, or None when no port is a supported board.
   */
  function FindBoard(ports: seq<SerialPort>): (r: Option<string>)
    ensures r.None? <==> forall i :: 0 <= i < |ports| ==> !IsKnownBoard(ports[i])
    ensures r.Some? ==>
      exists i :: 0 <= i < |ports| && IsKnownBoard(ports[i]) && ports[i].name == r.value &&
        forall j :: 0 <= j < i ==> !IsKnownBoard(ports[j])
    decreases |ports|
  {
    if |ports| == 0 then None
    else if IsKnownBoard(ports[0]) then Some(ports[0].name)
    else
      var r := FindBoard(ports[1..]);
      assert forall i :: 0 < i < |ports| ==> ports[1..][i - 1] == ports[i];
      if r.Some? then
        var i :| 0 <= i < |ports[1..]| && IsKnownBoard(ports[1..][i]) && ports[1..][i].name == r.value &&
          forall j :: 0 <= j < i ==> !IsKnownBoard(ports[1..][j]);
        assert IsKnownBoard(ports[i + 1]) && ports[i + 1].name == r.value;
        r
      else r
  }

  /** Ports listed before the first board make no difference; the search stops at the first board. */
  lemma {:induction false} FindBoardAppend(a: seq<SerialPort>, b: seq<SerialPort>)
    ensures FindBoard(a + b) == if FindBoard(a).Some? then FindBoard(a) else FindBoard(b)
    decreases |a|
  {
    if |a| > 0 {
      assert (a + b)[0] == a[0];
      assert (a + b)[1..] == a[1..] + b;
      FindBoardAppend(a[1..], b);
    } else {
      assert a + b == b;
    }
  }

  /** A supported board alone on the bus is found, whatever its identity in BOARD_IDS. */
  lemma KnownBoardFound(name: string, vid: u16, pid: u16)
    requires (vid, pid) in BOARD_IDS
    ensures FindBoard([SerialPort(name, vid, pid)]) == Some(name)
  {
  }

  /** A port whose identity is not in BOARD_IDS is never reported. */
  lemma UnknownPortsIgnored(ports: seq<SerialPort>, p: SerialPort)
    requires !IsKnownBoard(p)
    ensures FindBoard([p] + ports) == FindBoard(ports)
  {
    FindBoardAppend([p], ports);
  }

  /** Six distinct boards are supported: the micro:bit and five Adafruit boards. */
  lemma SupportedBoards()
    ensures |BOARD_IDS| == 6
    ensures forall id :: id in BOARD_IDS ==> id == (0x0D28, 0x0204) || id.0 == 0x239A
    ensures |set id | id in BOARD_IDS && id.0 == 0x239A| == 5
  {
    var adafruit := set id | id in BOARD_IDS && id.0 == 0x239A;
    assert adafruit == BOARD_IDS - {(0x0D28, 0x0204)};
  }
}

=== FILE: checks.dfy ===
/**
 * The two check functions of mu/logic.py as loops over the analysers'
 * output: `check_flake` and the parse loop of `check_pycodestyle`.
 */
module Checks {
  import opened Wrappers
  import opened Text
  import opened Patterns
  import opened Expansion
  import opened Diagnostics

  /**
   * The loop of `check_flake` over the reporter's log: the records the
   * guard keeps are grouped by line, in log order.
   */
  method GroupKept(log: seq<Diagnostic>, importAll: bool) returns (feedback: map<int, seq<Diagnostic>>)
    ensures feedback == GroupByLine(Retained(log, importAll))
  {
    feedback := map[];
    var i := 0;
    while i < |log|
      invariant 0 <= i <= |log|
      invariant feedback == GroupByLine(Retained(log[..i], importAll))
    {
      GroupKeptStep(log, i, importAll);
      if Kept(importAll, log[i]) {
        feedback := AddToLine(feedback, log[i]);
      }
      i := i + 1;
    }
    assert log[..i] == log;
  }

  /**
   * `check_flake`: pyflakes (the `analyse` parameter) reports on the text
   * with the wildcard import expanded, and the log is filtered and grouped.
   */
  method CheckFlake(code: string, analyse: string -> seq<ReporterCall>)
    returns (feedback: map<int, seq<Diagnostic>>)
    ensures feedback ==
      GroupByLine(Retained(Replay(analyse(FlakeSource(code))).log, Contains(code, WILDCARD_IMPORT)))
  {
    var importAll := Contains(code, WILDCARD_IMPORT);
    var checked := code;
    if importAll {
      checked := ReplaceAll(code, WILDCARD_IMPORT, EXPANDED_IMPORT);
    }
    var reporter := Replay(analyse(checked));
    feedback := GroupKept(reporter.log, importAll);
  }

  /** `msg.split(' ', 1)` unpacked into two names raises a ValueError when there is no space. */
  datatype StyleError = NotEnoughValuesToUnpack

  /**
   * The body of the parse loop of `check_pycodestyle` over the classified
   * lines: a malformed line aborts the whole check, skipped lines add
   * nothing, and parsed lines are grouped by line in output order.
   */
  method GroupParses(ps: seq<LineParse>) returns (r: Result<map<int, seq<Diagnostic>>, StyleError>)
    ensures r.Failure? <==> exists i :: 0 <= i < |ps| && ps[i].Malformed?
    ensures r.Success? ==> r.value == GroupByLine(Records(ps))
  {
    var feedback := map[];
    var i := 0;
    while i < |ps|
      invariant 0 <= i <= |ps|
      invariant forall j :: 0 <= j < i ==> !ps[j].Malformed?
      invariant feedback == GroupByLine(Records(ps[..i]))
    {
      if ps[i].Malformed? {
        return Failure(NotEnoughValuesToUnpack);
      }
      RecordsSnoc(ps[..i], ps[i]);
      assert ps[..i + 1] == ps[..i] + [ps[i]];
      if ps[i].Parsed? {
        GroupByLineSnoc(Records(ps[..i]), ps[i].d);
        feedback := AddToLine(feedback, ps[i].d);
      } else {
        assert Records(ps[..i + 1]) == Records(ps[..i]);
      }
      i := i + 1;
    }
    assert ps[..i] == ps;
    return Success(feedback);
  }

  /**
   * The parse loop of `check_pycodestyle`: lines that do not match are
   * skipped, and a matching line without a space after its location aborts
   * the whole check.
   */
  method ParseStyle(output: string) returns (r: Result<map<int, seq<Diagnostic>>, StyleError>)
    ensures r.Failure? <==>
      exists i :: 0 <= i < |OutputParses(output)| && OutputParses(output)[i].Malformed?
    ensures r.Success? ==> r.value == GroupByLine(Records(OutputParses(output)))
  {
    r := GroupParses(OutputParses(output));
  }
}

=== FILE: diagnostics.dfy ===
/**
 * Normalisation of the two analysers' findings into per-line diagnostics:
 * the pyflakes reporter callbacks, the false-positive filter of `check_flake`
 * and the parse loop of `check_pycodestyle`.
 */
module Diagnostics {
  import opened Wrappers
  import opened Text
  import opened Patterns
  import opened Expansion

  /** One record of feedback, as the dictionaries of mu/logic.py hold it; lines are 0-based. */
  datatype Diagnostic =
    | UnexpectedError(filename: string, message: string)
    | SyntaxError(line: int, column: int, message: string, source: string)
    | FlakeProblem(line: int, column: int, message: string)
    | StyleProblem(line: int, column: int, message: string, code: string)
  {
    /** The `line_no` key of the record. */
    function LineNo(): int {
      if UnexpectedError? then 0 else line
    }
  }

  /** The three callbacks pyflakes makes on its reporter, with their arguments. */
  datatype ReporterCall =
    | UnexpectedErrorCall(filename: string, message: string)
    | SyntaxErrorCall(filename: string, message: string, lineNo: int, column: int, source: string)
    | FlakeCall(message: string)

  const SYNTAX_ERROR_MESSAGE: string :=
    "Syntax error. Python cannot understand this line. Check for missing characters!"

  /** The record `MuFlakeCodeReporter` appends for one callback. */
  function Record(call: ReporterCall): (d: Diagnostic)
    ensures call.UnexpectedErrorCall? ==>
      d.UnexpectedError? && d.LineNo() == 0 && d.filename == call.filename && d.message == call.message
    ensures call.SyntaxErrorCall? ==>
      && d.SyntaxError?
      && d.LineNo() == call.lineNo - 1
      && d.column == call.column - 1
      && d.message == SYNTAX_ERROR_MESSAGE
    ensures call.FlakeCall? ==> d.FlakeProblem? && d.column == 0
    ensures call.FlakeCall? && FlakeMatch(call.message).None? ==>
      d.LineNo() == 0 && d.message == call.message
    ensures call.FlakeCall? && FlakeMatch(call.message).Some? ==>
      && d.LineNo() == DecimalValue(FlakeMatch(call.message).value.numbers[0]) - 1
      && d.message == FlakeMatch(call.message).value.rest
  {
    match call
    case UnexpectedErrorCall(filename, message) => UnexpectedError(filename, message)
    case SyntaxErrorCall(_, _, lineNo, column, source) =>
      SyntaxError(lineNo - 1, column - 1, SYNTAX_ERROR_MESSAGE, source)
    case FlakeCall(message) =>
      match FlakeMatch(message)
      case Some(g) => FlakeProblem(DecimalValue(g.numbers[0]) - 1, 0, g.rest)
      case None => FlakeProblem(0, 0, message)
  }

  /** `MuFlakeCodeReporter`: its `log` grows by one record per callback. */
  datatype Reporter = Reporter(log: seq<Diagnostic>) {
    function Receive(call: ReporterCall): Reporter {
      Reporter(log + [Record(call)])
    }
  }

  /** The reporter after a run of callbacks, starting from an empty log. */
  function Replay(calls: seq<ReporterCall>): Reporter
    decreases |calls|
  {
    if |calls| == 0 then Reporter([])
    else Replay(calls[..|calls| - 1]).Receive(calls[|calls| - 1])
  }

  /** The log holds one record per callback. */
  lemma {:induction false} ReplayLength(calls: seq<ReporterCall>)
    ensures |Replay(calls).log| == |calls|
    decreases |calls|
  {
    if |calls| > 0 {
      ReplayLength(calls[..|calls| - 1]);
    }
  }

  /** The log holds one record per callback, in callback order. */
  lemma {:induction false} ReplayLog(calls: seq<ReporterCall>)
    ensures |Replay(calls).log| == |calls|
    ensures forall i :: 0 <= i < |calls| ==> Replay(calls).log[i] == Record(calls[i])
    decreases |calls|
  {
    ReplayLength(calls);
    if |calls| > 0 {
      var prefix := calls[..|calls| - 1];
      ReplayLog(prefix);
      var last := calls[|calls| - 1];
      assert Replay(calls).log == Replay(prefix).log + [Record(last)];
      assert calls == prefix + [last];
    }
  }

  /** The records of `ds` on line `k`, in their order in `ds`. */
  function OnLine(ds: seq<Diagnostic>, k: int): (r: seq<Diagnostic>)
    ensures (forall i :: 0 <= i < |ds| ==> ds[i].LineNo() != k) <==> r == []
    decreases |ds|
  {
    if |ds| == 0 then []
    else
      var d := ds[|ds| - 1];
      assert forall i :: 0 <= i < |ds| - 1 ==> ds[..|ds| - 1][i] == ds[i];
      OnLine(ds[..|ds| - 1], k) + (if d.LineNo() == k then [d] else [])
  }

  /** The records on a line are records of `ds` on that line, and none is missed. */
  lemma {:induction false} OnLineMembers(ds: seq<Diagnostic>, k: int)
    ensures forall j :: 0 <= j < |OnLine(ds, k)| ==> OnLine(ds, k)[j].LineNo() == k
    ensures forall d :: d in OnLine(ds, k) <==> d in ds && d.LineNo() == k
    decreases |ds|
  {
    if |ds| > 0 {
      var prefix := ds[..|ds| - 1];
      OnLineMembers(prefix, k);
      assert ds == prefix + [ds[|ds| - 1]];
    }
  }

  /** Adds one record to a line-keyed dictionary, as both check functions do. */
  function AddToLine(m: map<int, seq<Diagnostic>>, d: Diagnostic): map<int, seq<Diagnostic>> {
    m[d.LineNo() := (if d.LineNo() in m then m[d.LineNo()] else []) + [d]]
  }

  /** The dictionary built by adding the records of `ds` in order: no line holds an empty list. */
  function GroupByLine(ds: seq<Diagnostic>): (r: map<int, seq<Diagnostic>>)
    ensures forall k :: k in r ==> 0 < |r[k]|
    decreases |ds|
  {
    if |ds| == 0 then map[] else AddToLine(GroupByLine(ds[..|ds| - 1]), ds[|ds| - 1])
  }

  /**
   * The keys of the dictionary are exactly the lines of the records, and
   * each line holds its records in their order in `ds`.
   */
  lemma {:induction false} GroupByLineSpec(ds: seq<Diagnostic>)
    ensures forall k :: k in GroupByLine(ds) <==> exists i :: 0 <= i < |ds| && ds[i].LineNo() == k
    ensures forall k :: k in GroupByLine(ds) ==> GroupByLine(ds)[k] == OnLine(ds, k)
    decreases |ds|
  {
    if |ds| > 0 {
      var prefix := ds[..|ds| - 1];
      var d := ds[|ds| - 1];
      GroupByLineSpec(prefix);
      assert forall i :: 0 <= i < |ds| - 1 ==> prefix[i] == ds[i];
      assert forall k :: OnLine(ds, k) == OnLine(prefix, k) + (if d.LineNo() == k then [d] else []);
    }
  }

  lemma GroupByLineSnoc(ds: seq<Diagnostic>, d: Diagnostic)
    ensures GroupByLine(ds + [d]) == AddToLine(GroupByLine(ds), d)
  {
    assert (ds + [d])[..|ds|] == ds;
  }

  /**
   * The text handed to pyflakes (mu/logic.py:199-203): pyflakes never sees the
   * wildcard import, since every occurrence is expanded, and code without it
   * is passed on untouched.
   */
  function FlakeSource(code: string): (r: string)
    ensures !Contains(r, WILDCARD_IMPORT)
    ensures !Contains(code, WILDCARD_IMPORT) ==> r == code
    ensures Contains(code, WILDCARD_IMPORT) ==> Contains(r, EXPANDED_IMPORT)
  {
    if Contains(code, WILDCARD_IMPORT) then
      Expanded(code);
      ReplaceAll(code, WILDCARD_IMPORT, EXPANDED_IMPORT)
    else code
  }

  /** The expanded code holds the expansion and no wildcard import. */
  lemma Expanded(code: string)
    requires Contains(code, WILDCARD_IMPORT)
    ensures !Contains(ReplaceAll(code, WILDCARD_IMPORT, EXPANDED_IMPORT), WILDCARD_IMPORT)
    ensures Contains(ReplaceAll(code, WILDCARD_IMPORT, EXPANDED_IMPORT), EXPANDED_IMPORT)
  {
    ReplaceAllInserts(code, WILDCARD_IMPORT, EXPANDED_IMPORT);
    ExpandedImportHasNoStar();
    assert EXPANDED_IMPORT[|EXPANDED_IMPORT| - 1] == 's';
    assert 's' !in WILDCARD_IMPORT;
    ReplaceAllRemoves(code, WILDCARD_IMPORT, EXPANDED_IMPORT);
  }

  /**
   * The expansion takes the place of the wildcard import: a single wildcard
   * import in the code is replaced by EXPANDED_IMPORT and the code around it
   * is kept as it is.
   */
  lemma FlakeSourceOne(a: string, b: string)
    requires !Contains(a, WILDCARD_IMPORT) && !Contains(b, WILDCARD_IMPORT)
    ensures FlakeSource(a + WILDCARD_IMPORT + b) == a + EXPANDED_IMPORT + b
  {
    var code := a + WILDCARD_IMPORT + b;
    assert code[|a|..|a| + |WILDCARD_IMPORT|] == WILDCARD_IMPORT;
    assert OccursAt(code, WILDCARD_IMPORT, |a|);
    assert '*' !in WILDCARD_IMPORT[..|WILDCARD_IMPORT| - 1];
    ReplaceAllOne(a, WILDCARD_IMPORT, b, EXPANDED_IMPORT);
  }

  /** A record survives the guard of `check_flake`. */
  predicate Kept(importAll: bool, d: Diagnostic) {
    !(importAll && IsFalsePositive(d.message))
  }

  /** The records of `log` that survive the guard, in order. */
  function Retained(log: seq<Diagnostic>, importAll: bool): (r: seq<Diagnostic>)
    ensures !importAll ==> r == log
    ensures |r| <= |log|
    decreases |log|
  {
    if |log| == 0 then []
    else
      var prefix := log[..|log| - 1];
      var d := log[|log| - 1];
      assert log == prefix + [d];
      Retained(prefix, importAll) + (if Kept(importAll, d) then [d] else [])
  }

  lemma RetainedSnoc(log: seq<Diagnostic>, d: Diagnostic, importAll: bool)
    ensures Retained(log + [d], importAll) ==
            Retained(log, importAll) + (if Kept(importAll, d) then [d] else [])
  {
    assert (log + [d])[..|log|] == log;
  }

  /**
   * With the wildcard import in the code, an unused-name record for a
   * microbit name is dropped and one for another module is kept; without
   * it, both are kept.
   */
  lemma SuppressionScenario(name: string, k: int, j: int)
    requires 0 < |name| && forall i :: 0 <= i < |name| ==> IsWordChar(name[i])
    ensures var artifact := FlakeProblem(k, 0, UnusedMicrobitMessage(name));
            var genuine := FlakeProblem(j, 0, "'os' imported but unused");
            && Retained([artifact, genuine], true) == [genuine]
            && Retained([artifact, genuine], false) == [artifact, genuine]
  {
    var artifact := FlakeProblem(k, 0, UnusedMicrobitMessage(name));
    var genuine := FlakeProblem(j, 0, "'os' imported but unused");
    UnusedMicrobitNameIsFalsePositive(name);
    OtherModuleIsNotFalsePositive();
    RetainedSnoc([artifact], genuine, true);
    RetainedSnoc([], artifact, true);
    assert [artifact] == [] + [artifact];
    assert [artifact, genuine] == [artifact] + [genuine];
  }

  /** One turn of the loop of `check_flake`: the next record is added only if it is kept. */
  lemma GroupKeptStep(log: seq<Diagnostic>, i: nat, importAll: bool)
    requires i < |log|
    ensures GroupByLine(Retained(log[..i + 1], importAll)) ==
      if Kept(importAll, log[i]) then AddToLine(GroupByLine(Retained(log[..i], importAll)), log[i])
      else GroupByLine(Retained(log[..i], importAll))
  {
    assert log[..i + 1] == log[..i] + [log[i]];
    RetainedSnoc(log[..i], log[i], importAll);
    if Kept(importAll, log[i]) {
      GroupByLineSnoc(Retained(log[..i], importAll), log[i]);
    } else {
      assert Retained(log[..i + 1], importAll) == Retained(log[..i], importAll);
    }
  }

  /** A record is kept exactly when the guard lets it through; the rest are dropped. */
  lemma {:induction false} RetainedMembers(log: seq<Diagnostic>, importAll: bool)
    ensures forall d :: d in Retained(log, importAll) <==> d in log && Kept(importAll, d)
    decreases |log|
  {
    if |log| > 0 {
      var prefix := log[..|log| - 1];
      RetainedMembers(prefix, importAll);
      assert log == prefix + [log[|log| - 1]];
    }
  }

  /** The keys of the grouped records are the lines of the records the guard keeps. */
  lemma RetainedKeys(log: seq<Diagnostic>, importAll: bool, k: int)
    ensures k in GroupByLine(Retained(log, importAll)) <==>
            exists i :: 0 <= i < |log| && Kept(importAll, log[i]) && log[i].LineNo() == k
  {
    var kept := Retained(log, importAll);
    RetainedMembers(log, importAll);
    GroupByLineSpec(kept);
    if k in GroupByLine(kept) {
      var j :| 0 <= j < |kept| && kept[j].LineNo() == k;
      assert kept[j] in log;
    }
    if exists i :: 0 <= i < |log| && Kept(importAll, log[i]) && log[i].LineNo() == k {
      var i :| 0 <= i < |log| && Kept(importAll, log[i]) && log[i].LineNo() == k;
      assert log[i] in kept;
      var j :| 0 <= j < |kept| && kept[j] == log[i];
    }
  }

  /** What the parse loop makes of one line of pycodestyle output. */
  datatype LineParse = Skipped | Malformed | Parsed(d: Diagnostic)

  /** The description of a style finding, before capitalization. */
  function Described(code: string, description: string): string {
    if code == "E303" then description + " above this line" else description
  }

  /**
   * One iteration of the parse loop of `check_pycodestyle`: a line the
   * expression does not match is skipped, a matched line whose message has
   * no space cannot be unpacked, and any other gives a style record whose
   * code is the message's first word.
   */
  function StyleLine(line: string): (r: LineParse)
    ensures r.Skipped? <==> StyleMatch(line).None?
    ensures r.Malformed? <==> StyleMatch(line).Some? && ' ' !in StyleMatch(line).value.rest
    ensures r.Parsed? ==>
      && r.d.StyleProblem? && ' ' !in r.d.code && -1 <= r.d.line && -1 <= r.d.column
  {
    match StyleMatch(line)
    case None => Skipped
    case Some(g) =>
      match SplitOnce(g.rest, ' ')
      case None => Malformed
      case Some((code, description)) =>
        Parsed(StyleProblem(DecimalValue(g.numbers[0]) - 1, DecimalValue(g.numbers[1]) - 1,
                            Capitalize(Described(code, description)), code))
  }

  /** What the parse loop makes of each line of the output. */
  function Parses(lines: seq<string>): (ps: seq<LineParse>)
    ensures |ps| == |lines|
    ensures forall j :: 0 <= j < |lines| ==> ps[j] == StyleLine(lines[j])
  {
    seq(|lines|, j requires 0 <= j < |lines| => StyleLine(lines[j]))
  }

  /** The classified lines of the whole pycodestyle output: one per newline-free line. */
  function OutputParses(output: string): (ps: seq<LineParse>)
    ensures |ps| == |Split(output, '\n')|
    ensures forall j :: 0 <= j < |ps| ==>
      var line := Split(output, '\n')[j]; '\n' !in line && ps[j] == StyleLine(line)
  {
    SplitPieces(output, '\n');
    Parses(Split(output, '\n'))
  }

  /** The records of the lines that parse, in output order. */
  function Records(ps: seq<LineParse>): seq<Diagnostic>
    decreases |ps|
  {
    if |ps| == 0 then []
    else Records(ps[..|ps| - 1]) + (match ps[|ps| - 1] case Parsed(d) => [d] case _ => [])
  }

  /** Every line that parses contributes its record, and nothing else is added. */
  lemma {:induction false} RecordsMembers(ps: seq<LineParse>)
    ensures |Records(ps)| <= |ps|
    ensures forall i :: 0 <= i < |ps| && ps[i].Parsed? ==> ps[i].d in Records(ps)
    ensures forall d :: d in Records(ps) ==> Parsed(d) in ps
    decreases |ps|
  {
    if |ps| > 0 {
      var prefix := ps[..|ps| - 1];
      RecordsMembers(prefix);
      assert forall i :: 0 <= i < |ps| - 1 ==> prefix[i] == ps[i];
    }
  }

  lemma RecordsSnoc(ps: seq<LineParse>, p: LineParse)
    ensures Records(ps + [p]) == Records(ps) + (if p.Parsed? then [p.d] else [])
  {
    assert (ps + [p])[..|ps|] == ps;
  }
}

=== FILE: expansion.dfy ===
/** The text `check_flake` substitutes for the micro:bit wildcard import. */
module Expansion {
  /** The import that `check_flake` expands (mu/logic.py:199). */
  const WILDCARD_IMPORT: string := "from microbit import *"

  // The expansion is kept in four parts so that each part's proof of having no
  // `*` stays small; their concatenation is the constant of mu/logic.py:70-75.
  const EXPANDED_PART_1: string :=
    "from microbit import " + "pin15, pin2, pin0, pin1, " + " pin3, pin6, pin4, i2c, "
  const EXPANDED_PART_2: string :=
    "pin5, pin7, pin8, Image, " + "pin9, pin14, pin16, " + "reset, pin19, temperature, "
  const EXPANDED_PART_3: string :=
    "sleep, pin20, button_a, " + "button_b, running_time, " + "accelerometer, display, "
  const EXPANDED_PART_4: string :=
    "uart, spi, panic, pin13, " + "pin12, pin11, pin10, " + "compass"

  /** EXPANDED_IMPORT (mu/logic.py:70-75), including its doubled space. */
  const EXPANDED_IMPORT: string := EXPANDED_PART_1 + EXPANDED_PART_2 + EXPANDED_PART_3 + EXPANDED_PART_4

  lemma Part1HasNoStar()
    ensures '*' !in EXPANDED_PART_1
  {
    assert '*' !in "from microbit import ";
    assert '*' !in "pin15, pin2, pin0, pin1, ";
    assert '*' !in " pin3, pin6, pin4, i2c, ";
  }

  lemma Part2HasNoStar()
    ensures '*' !in EXPANDED_PART_2
  {
    assert '*' !in "pin5, pin7, pin8, Image, ";
    assert '*' !in "pin9, pin14, pin16, ";
    assert '*' !in "reset, pin19, temperature, ";
  }

  lemma Part3HasNoStar()
    ensures '*' !in EXPANDED_PART_3
  {
    assert '*' !in "sleep, pin20, button_a, ";
    assert '*' !in "button_b, running_time, ";
    assert '*' !in "accelerometer, display, ";
  }

  lemma Part4HasNoStar()
    ensures '*' !in EXPANDED_PART_4
  {
    assert '*' !in "uart, spi, panic, pin13, ";
    assert '*' !in "pin12, pin11, pin10, ";
    assert '*' !in "compass";
  }

  /**
   * The expansion is the same import from the microbit module, with the
   * names spelled out in place of the `*`.
   */
  lemma ExpansionNamesTheModule()
    ensures |WILDCARD_IMPORT| < |EXPANDED_IMPORT|
    ensures EXPANDED_IMPORT[..|WILDCARD_IMPORT| - 1] == WILDCARD_IMPORT[..|WILDCARD_IMPORT| - 1]
  {
    assert EXPANDED_IMPORT[..21] == EXPANDED_PART_1[..21];
  }

  /** The expansion holds no `*`, so it cannot recreate the wildcard. */
  lemma ExpandedImportHasNoStar()
    ensures '*' !in EXPANDED_IMPORT
  {
    Part1HasNoStar();
    Part2HasNoStar();
    Part3HasNoStar();
    Part4HasNoStar();
  }
}

=== FILE: flashing.dfy ===
/**
 * `Editor.flash`: the size guard on the script, the resolution of the
 * micro:bit's mount point (auto-detection, then the remembered path, then
 * asking the user) and the staleness check before flashing.
 */
module Flashing {
  import opened Wrappers

  /** The number of bytes UTF-8 spends on one Unicode scalar value. */
  function Utf8Size(c: char): (n: nat)
    ensures 1 <= n <= 4
  {
    if c as int < 0x80 then 1
    else if c as int < 0x800 then 2
    else if c as int < 0x1_0000 then 3
    else 4
  }

  /** `len(text.encode('utf-8'))`. */
  function Utf8Length(s: string): (n: nat)
    ensures |s| <= n <= 4 * |s|
    decreases |s|
  {
    if |s| == 0 then 0 else Utf8Length(s[..|s| - 1]) + Utf8Size(s[|s| - 1])
  }

  /** The encoded length of a concatenation is the sum of the parts' lengths. */
  lemma {:induction false} Utf8LengthAppend(a: string, b: string)
    ensures Utf8Length(a + b) == Utf8Length(a) + Utf8Length(b)
    decreases |b|
  {
    if |b| == 0 {
      assert a + b == a;
    } else {
      var b' := b[..|b| - 1];
      assert (a + b)[..|a + b| - 1] == a + b';
      Utf8LengthAppend(a, b');
    }
  }

  /** An ASCII text takes one byte per character. */
  lemma {:induction false} Utf8LengthAscii(s: string)
    requires forall i :: 0 <= i < |s| ==> s[i] as int < 0x80
    ensures Utf8Length(s) == |s|
    decreases |s|
  {
    if |s| > 0 {
      Utf8LengthAscii(s[..|s| - 1]);
    }
  }

  /** Scripts of this many bytes or more do not fit on the device (mu/logic.py:418). */
  const MAX_SCRIPT_BYTES: nat := 8192

  /** The message shown when no usable mount point is found. */
  const NOT_FOUND_MESSAGE: string := "Could not find an attached BBC micro:bit."

  /** The editor tab being flashed. */
  datatype Tab = Tab(title: string, text: string)

  /** Python truthiness of an optional path: present and not empty. */
  predicate Truthy(p: Option<string>) {
    p.Some? && p.value != ""
  }

  /**
   * What `flash` learns from its collaborators: the mount point
   * `uflash.find_microbit` detects, what the user answers when asked, which
   * paths exist on disk, and the custom runtime from the settings.
   */
  datatype FlashEnv = FlashEnv(
    mount: Option<string>,
    answer: Option<string>,
    present: string -> bool,
    runtime: Option<string>)

  /** What one call of `flash` does. */
  datatype Outcome =
    | NoTab
    | TooLong(message: string)
    | Flashed(paths: seq<string>, script: string, runtime: Option<string>, message: string)
    | NotFound(message: string)

  /**
   * The outcome, the remembered path (`user_defined_microbit_path`) after
   * the call, and whether the user was asked for the mount point.
   */
  datatype FlashResult = FlashResult(outcome: Outcome, remembered: Option<string>, asked: bool)

  predicate FitsOnDevice(tab: Tab) {
    Utf8Length(tab.text) < MAX_SCRIPT_BYTES
  }

  /** The message shown after flashing; it names the custom runtime when one exists on disk. */
  function FlashedMessage(title: string, runtime: Option<string>, present: string -> bool): string {
    var message := "Flashing \"" + title + "\" onto the micro:bit.";
    if runtime.Some? && present(runtime.value) then message + "\nRuntime: " + runtime.value else message
  }

  /**
   * The path `flash` settles on: the detected mount point, else the
   * remembered path when it is truthy, else the user's answer (which is then
   * remembered).
   */
  function Resolve(remembered: Option<string>, env: FlashEnv): (r: (Option<string>, Option<string>, bool))
    ensures env.mount.Some? ==> r.0 == env.mount && r.1 == remembered && !r.2
    ensures env.mount.None? ==> r.0 == r.1
    ensures r.2 <==> env.mount.None? && !Truthy(remembered)
    ensures r.2 ==> r.0 == env.answer
    ensures !r.2 ==> r.1 == remembered
  {
    if env.mount.Some? then (env.mount, remembered, false)
    else if Truthy(remembered) then (remembered, remembered, false)
    else (env.answer, env.answer, true)
  }

  /** `Editor.flash` for the current tab, if any. */
  function Flash(tab: Option<Tab>, remembered: Option<string>, env: FlashEnv): (r: FlashResult)
    ensures tab.None? ==> r == FlashResult(NoTab, remembered, false)
    ensures tab.Some? ==> !r.outcome.NoTab?
    ensures tab.Some? && FitsOnDevice(tab.value) ==>
      var p := if env.mount.Some? then env.mount else if Truthy(remembered) then remembered else env.answer;
      && (r.outcome.Flashed? <==> Truthy(p) && env.present(p.value))
      && (r.outcome.Flashed? ==> r.outcome.paths == [p.value])
    ensures tab.Some? && FitsOnDevice(tab.value) && !r.outcome.Flashed? ==>
      r.outcome == NotFound(NOT_FOUND_MESSAGE) && r.remembered.None?
    ensures tab.Some? ==> (r.outcome.TooLong? <==> !FitsOnDevice(tab.value))
    ensures r.outcome.TooLong? ==> r.remembered == remembered && !r.asked
    ensures r.outcome.TooLong? ==> r.outcome.message == "Unable to flash \"" + tab.value.title + "\""
    ensures r.asked <==> tab.Some? && FitsOnDevice(tab.value) && env.mount.None? && !Truthy(remembered)
    ensures r.outcome.NotFound? ==> r.remembered.None?
    ensures r.outcome.Flashed? ==>
      && |r.outcome.paths| == 1
      && Truthy(Some(r.outcome.paths[0])) && env.present(r.outcome.paths[0])
      && r.outcome.script == tab.value.text
      && r.outcome.runtime == env.runtime
      && r.outcome.message == FlashedMessage(tab.value.title, env.runtime, env.present)
      && r.remembered == (if r.asked then env.answer else remembered)
  {
    match tab
    case None => FlashResult(NoTab, remembered, false)
    case Some(t) =>
      if !FitsOnDevice(t) then
        FlashResult(TooLong("Unable to flash \"" + t.title + "\""), remembered, false)
      else
        var (path, kept, asked) := Resolve(remembered, env);
        if Truthy(path) && env.present(path.value) then
          var message := FlashedMessage(t.title, env.runtime, env.present);
          FlashResult(Flashed([path.value], t.text, env.runtime, message), kept, asked)
        else
          FlashResult(NotFound(NOT_FOUND_MESSAGE), None, asked)
  }

  /** The path the flasher is given is the resolved one: detected, else remembered, else answered. */
  lemma FlashedPathIsResolved(t: Tab, remembered: Option<string>, env: FlashEnv)
    requires Flash(Some(t), remembered, env).outcome.Flashed?
    ensures Flash(Some(t), remembered, env).outcome.paths ==
      [if env.mount.Some? then env.mount.value
       else if Truthy(remembered) then remembered.value
       else env.answer.value]
  {
  }

  /** A script too long is refused before anything about the device is consulted. */
  lemma TooLongIgnoresDevice(t: Tab, remembered: Option<string>, env1: FlashEnv, env2: FlashEnv)
    requires !FitsOnDevice(t)
    ensures Flash(Some(t), remembered, env1) == Flash(Some(t), remembered, env2)
  {
  }

  /** Exactly 8192 bytes of ASCII is refused; 8191 bytes goes on to look for the device. */
  lemma SizeBoundary(title: string, s: string, c: char)
    requires forall i :: 0 <= i < |s| ==> s[i] as int < 0x80
    requires c as int < 0x80
    requires |s| == 8191
    ensures FitsOnDevice(Tab(title, s))
    ensures !FitsOnDevice(Tab(title, s + [c]))
  {
    Utf8LengthAscii(s);
    Utf8LengthAppend(s, [c]);
    assert Utf8Length([c]) == Utf8Length([c][..0]) + Utf8Size(c);
  }

  /**
   * With nothing detected, a remembered path that has gone stale is
   * forgotten and the device reported missing; the next call asks the user,
   * flashes to the answer and remembers it; and the call after that flashes
   * to the remembered path without asking.
   */
  lemma StalePathRecovery(t: Tab, oldPath: string, newPath: string, env1: FlashEnv, env2: FlashEnv, env3: FlashEnv)
    requires FitsOnDevice(t)
    requires oldPath != "" && newPath != ""
    requires env1.mount.None? && !env1.present(oldPath)
    requires env2.mount.None? && env2.answer == Some(newPath) && env2.present(newPath)
    requires env3.mount.None? && env3.present(newPath)
    ensures var r1 := Flash(Some(t), Some(oldPath), env1);
      && r1.outcome == NotFound(NOT_FOUND_MESSAGE) && r1.remembered == None && !r1.asked
      && var r2 := Flash(Some(t), r1.remembered, env2);
      && r2.outcome.Flashed? && r2.outcome.paths == [newPath] && r2.remembered == Some(newPath) && r2.asked
      && var r3 := Flash(Some(t), r2.remembered, env3);
      && r3.outcome.Flashed? && r3.outcome.paths == [newPath] && r3.remembered == Some(newPath) && !r3.asked
  {
  }
}

=== FILE: patterns.dfy ===
/**
 * The three regular expressions of the editor, as explicit string functions.
 *
 * STYLE_REGEX is `.*:(\d+):(\d+):\s+(.*)` and FLAKE_REGEX is `.*:(\d+):\s+(.*)`,
 * both applied with `re.match` (anchored at the start only). Backtracking
 * fixes how they match: the leading `.*` cannot cross a newline and is
 * greedy, so the rightmost start before the first newline that lets the
 * rest match is taken; each `\d+` must take the whole run of digits, since
 * a shorter run is followed by a digit rather than `:`; `\s+` takes the whole
 * run of white space; and the final `(.*)` runs up to the next newline.
 */
module Patterns {
  import opened Wrappers
  import opened Text

  /** The end of the longest run of `inClass` characters starting at `i`. */
  function RunEnd(s: string, i: nat, inClass: char -> bool): (e: nat)
    requires i <= |s|
    ensures i <= e <= |s|
    ensures e == |s| || !inClass(s[e])
    decreases |s| - i
  {
    if i < |s| && inClass(s[i]) then RunEnd(s, i + 1, inClass) else i
  }

  /** Every character of the run is in the class. */
  lemma {:induction false} RunEndRun(s: string, i: nat, inClass: char -> bool)
    requires i <= |s|
    ensures forall t :: i <= t < RunEnd(s, i, inClass) ==> inClass(s[t])
    decreases |s| - i
  {
    if i < |s| && inClass(s[i]) {
      RunEndRun(s, i + 1, inClass);
    }
  }

  /** The captured groups of one match: the digit groups, then the trailing text. */
  datatype Groups = Groups(numbers: seq<string>, rest: string)

  /**
   * Matches `(:(\d+)){n}:\s+(.*)` with its first `:` at index `k`; this is the
   * part of the pattern that follows the leading `.*`.
   */
  function FieldsAt(s: string, k: nat, n: nat): (r: Option<Groups>)
    ensures r.Some? ==> k < |s| && s[k] == ':'
    ensures r.Some? ==> |r.value.numbers| == n && '\n' !in r.value.rest
    decreases n
  {
    if !(k < |s| && s[k] == ':') then None
    else if n == 0 then
      var f := RunEnd(s, k + 1, IsSpace);
      RunEndRun(s, f, NotNewline);
      if k + 1 < f then Some(Groups([], s[f..RunEnd(s, f, NotNewline)])) else None
    else
      var e := RunEnd(s, k + 1, IsDigit);
      RunEndRun(s, k + 1, IsDigit);
      if k + 1 < e then
        match FieldsAt(s, e, n - 1)
        case None => None
        case Some(g) => Some(Groups([s[k + 1..e]] + g.numbers, g.rest))
      else None
  }

  /** Every captured field is a non-empty run of digits. */
  lemma {:induction false} FieldsAtDigits(s: string, k: nat, n: nat)
    ensures FieldsAt(s, k, n).Some? ==> DigitFields(FieldsAt(s, k, n).value.numbers)
    decreases n
  {
    if k < |s| && s[k] == ':' && 0 < n {
      var e := RunEnd(s, k + 1, IsDigit);
      RunEndRun(s, k + 1, IsDigit);
      FieldsAtDigits(s, e, n - 1);
    }
  }

  /** The pattern after the leading `.*` matches with its first `:` at `k`. */
  predicate MatchesAt(s: string, k: nat, n: nat) {
    FieldsAt(s, k, n).Some?
  }

  /** The greatest index below `limit` that satisfies `ok`. */
  function LastWhere(ok: nat -> bool, limit: nat): (r: Option<nat>)
    ensures r.None? <==> forall k: nat :: k < limit ==> !ok(k)
    ensures r.Some? ==> r.value < limit && ok(r.value)
    ensures r.Some? ==> forall j: nat :: r.value < j < limit ==> !ok(j)
    decreases limit
  {
    if limit == 0 then None
    else if ok(limit - 1) then Some(limit - 1)
    else LastWhere(ok, limit - 1)
  }

  /** The greatest match start below `limit`: where the greedy `.*` stops. */
  function LastMatchStart(s: string, n: nat, limit: nat): (r: Option<nat>)
    ensures r.None? <==> forall k: nat :: k < limit ==> !MatchesAt(s, k, n)
    ensures r.Some? ==> r.value < limit && MatchesAt(s, r.value, n)
    ensures r.Some? ==> forall j: nat :: r.value < j < limit ==> !MatchesAt(s, j, n)
  {
    var ok := (k: nat) => MatchesAt(s, k, n);
    assert forall k: nat :: ok(k) == MatchesAt(s, k, n);
    LastWhere(ok, limit)
  }

  /** `re.match` of `.*` followed by `n` digit fields and the trailing text. */
  function FieldsMatch(s: string, n: nat): (r: Option<Groups>)
    ensures r.Some? ==> |r.value.numbers| == n && '\n' !in r.value.rest
    ensures r.Some? ==> forall j :: 0 <= j < n ==> 0 < |r.value.numbers[j]| && AllDigits(r.value.numbers[j])
  {
    match LastMatchStart(s, n, RunEnd(s, 0, NotNewline))
    case None => None
    case Some(k) =>
      FieldsAtDigits(s, k, n);
      FieldsAt(s, k, n)
  }

  /** STYLE_REGEX (mu/logic.py:64): groups line, column and message. */
  function StyleMatch(s: string): (r: Option<Groups>)
    ensures r.Some? ==> |r.value.numbers| == 2 && '\n' !in r.value.rest
    ensures r.Some? ==> 0 < |r.value.numbers[0]| && AllDigits(r.value.numbers[0])
    ensures r.Some? ==> 0 < |r.value.numbers[1]| && AllDigits(r.value.numbers[1])
  {
    FieldsMatch(s, 2)
  }

  /** FLAKE_REGEX (mu/logic.py:66): groups line and message. */
  function FlakeMatch(s: string): (r: Option<Groups>)
    ensures r.Some? ==> |r.value.numbers| == 1 && '\n' !in r.value.rest
    ensures r.Some? ==> 0 < |r.value.numbers[0]| && AllDigits(r.value.numbers[0])
  {
    FieldsMatch(s, 1)
  }

  /**
   * The match is the one at the rightmost `:` start: any start `k` before the
   * first newline that matches, with no later start before it matching, is the
   * one taken.
   */
  lemma FieldsMatchAt(s: string, n: nat, k: nat)
    requires k < RunEnd(s, 0, NotNewline)
    requires MatchesAt(s, k, n)
    requires forall j: nat :: k < j < RunEnd(s, 0, NotNewline) ==> !MatchesAt(s, j, n)
    ensures FieldsMatch(s, n) == FieldsAt(s, k, n)
  {
  }

  /** There is no match exactly when no start before the first newline matches. */
  lemma FieldsMatchNone(s: string, n: nat)
    ensures FieldsMatch(s, n).None? <==> forall k: nat :: k < RunEnd(s, 0, NotNewline) ==> !MatchesAt(s, k, n)
  {
  }

  /** Only the part of a text after a start position decides a match there. */
  lemma RunEndShift(a: string, b: string, i: nat, inClass: char -> bool)
    requires i <= |b|
    ensures RunEnd(a + b, |a| + i, inClass) == |a| + RunEnd(b, i, inClass)
  {
    var s := a + b;
    var e := RunEnd(b, i, inClass);
    RunEndRun(b, i, inClass);
    assert forall t :: |a| + i <= t < |a| + e ==> s[t] == b[t - |a|];
    assert |a| + e == |s| || s[|a| + e] == b[e];
    RunEndIs(s, |a| + i, |a| + e, inClass);
  }

  lemma {:induction false} FieldsAtShift(a: string, b: string, j: nat, n: nat)
    requires j <= |b|
    ensures FieldsAt(a + b, |a| + j, n) == FieldsAt(b, j, n)
    decreases n, 1
  {
    if j < |b| && b[j] == ':' {
      if n == 0 {
        TrailingShift(a, b, j);
      } else {
        DigitFieldShift(a, b, j, n);
      }
    } else if j < |b| {
      assert (a + b)[|a| + j] == b[j];
    }
  }

  /** The shift of a match whose first field is a digit field. */
  lemma {:induction false} DigitFieldShift(a: string, b: string, j: nat, n: nat)
    requires j < |b| && b[j] == ':' && 0 < n
    ensures FieldsAt(a + b, |a| + j, n) == FieldsAt(b, j, n)
    decreases n, 0
  {
    var s := a + b;
    var k := |a| + j;
    assert s[k] == ':';
    RunEndShift(a, b, j + 1, IsDigit);
    var e := RunEnd(b, j + 1, IsDigit);
    FieldsAtDigit(s, k, n, |a| + e);
    FieldsAtDigit(b, j, n, e);
    if j + 1 < e {
      SliceShift(a, b, j + 1, e);
      FieldsAtShift(a, b, e, n - 1);
    }
  }

  lemma SliceShift(a: string, b: string, i: nat, e: nat)
    requires i <= e <= |b|
    ensures (a + b)[|a| + i..|a| + e] == b[i..e]
  {
  }

  /** The groups after a digit field `d`, given the match of the remaining fields. */
  function PrependField(d: string, rest: Option<Groups>): Option<Groups> {
    match rest
    case None => None
    case Some(g) => Some(Groups([d] + g.numbers, g.rest))
  }

  /** One unfolding of a digit field: its run of digits, then the remaining fields. */
  lemma FieldsAtDigit(s: string, k: nat, n: nat, e: nat)
    requires k < |s| && s[k] == ':' && 0 < n
    requires e == RunEnd(s, k + 1, IsDigit)
    ensures FieldsAt(s, k, n) == if k + 1 < e then PrependField(s[k + 1..e], FieldsAt(s, e, n - 1)) else None
  {
  }

  lemma TrailingShift(a: string, b: string, j: nat)
    requires j < |b| && b[j] == ':'
    ensures FieldsAt(a + b, |a| + j, 0) == FieldsAt(b, j, 0)
  {
    var s := a + b;
    assert s[|a| + j] == ':';
    RunEndShift(a, b, j + 1, IsSpace);
    var f := RunEnd(b, j + 1, IsSpace);
    RunEndShift(a, b, f, NotNewline);
    var g := RunEnd(b, f, NotNewline);
    SliceShift(a, b, f, g);
  }

  /** The text the pattern after `.*` describes: `:d` for each digit field, then `: ` and `m`. */
  function FieldsText(ds: seq<string>, m: string): string
    decreases |ds|
  {
    if |ds| == 0 then ": " + m else ":" + ds[0] + FieldsText(ds[1..], m)
  }

  predicate DigitFields(ds: seq<string>) {
    forall j :: 0 <= j < |ds| ==> 0 < |ds[j]| && AllDigits(ds[j])
  }

  /** The trailing text is taken whole when it does not start with white space. */
  predicate PlainTail(m: string) {
    '\n' !in m && (0 < |m| ==> !IsSpace(m[0]))
  }

  lemma {:induction false} RunEndIs(s: string, i: nat, e: nat, inClass: char -> bool)
    requires i <= e <= |s|
    requires forall t :: i <= t < e ==> inClass(s[t])
    requires e == |s| || !inClass(s[e])
    ensures RunEnd(s, i, inClass) == e
    decreases e - i
  {
    if i < e {
      RunEndIs(s, i + 1, e, inClass);
    }
  }

  lemma {:induction false} FieldsTextNoNewline(ds: seq<string>, m: string)
    requires DigitFields(ds) && '\n' !in m
    ensures '\n' !in FieldsText(ds, m)
    decreases |ds|
  {
    if |ds| > 0 {
      FieldsTextNoNewline(ds[1..], m);
      assert forall t :: 0 <= t < |ds[0]| ==> IsDigit(ds[0][t]);
    }
  }

  /** Peeling one digit field off the front. */
  lemma FieldsAtStep(d: string, x: string, n: nat)
    requires 0 < |d| && AllDigits(d)
    requires 0 < |x| && x[0] == ':'
    ensures FieldsAt(":" + d + x, 0, n + 1) ==
      match FieldsAt(x, 0, n)
      case None => None
      case Some(g) => Some(Groups([d] + g.numbers, g.rest))
  {
    var s := ":" + d + x;
    RunEndIs(s, 1, 1 + |d|, IsDigit);
    assert s[1..1 + |d|] == d;
    FieldsAtShift(":" + d, x, 0, n);
  }

  /** The trailing `: m` is read back as the text `m`. */
  lemma TailText(m: string)
    requires PlainTail(m)
    ensures FieldsAt(": " + m, 0, 0) == Some(Groups([], m))
  {
    var s := ": " + m;
    assert s[0] == ':' && s[1] == ' ';
    RunEndIs(s, 1, 2, IsSpace);
    assert forall t :: 2 <= t < |s| ==> s[t] == m[t - 2];
    RunEndIs(s, 2, |s|, NotNewline);
    assert s[2..|s|] == m;
  }

  /** The text of the fields is read back as exactly those fields. */
  lemma {:induction false} FieldsAtText(ds: seq<string>, m: string)
    requires DigitFields(ds) && PlainTail(m)
    ensures FieldsAt(FieldsText(ds, m), 0, |ds|) == Some(Groups(ds, m))
    decreases |ds|
  {
    if |ds| == 0 {
      TailText(m);
      assert ds == [];
    } else {
      FieldsAtText(ds[1..], m);
      FieldsAtStep(ds[0], FieldsText(ds[1..], m), |ds| - 1);
      assert [ds[0]] + ds[1..] == ds;
    }
  }

  /** Asking for more fields than the text holds never matches. */
  lemma {:induction false} FieldsAtTooMany(ds: seq<string>, m: string, n: nat)
    requires DigitFields(ds)
    requires |ds| < n
    ensures !MatchesAt(FieldsText(ds, m), 0, n)
    decreases |ds|
  {
    if |ds| == 0 {
      var s := ": " + m;
      RunEndIs(s, 1, 1, IsDigit);
    } else {
      FieldsAtTooMany(ds[1..], m, n - 1);
      FieldsAtStep(ds[0], FieldsText(ds[1..], m), n - 1);
    }
  }

  /** No start after the first `:` of the fields matches, unless one in `m` does. */
  lemma {:induction false} FieldsTextNoLaterMatch(ds: seq<string>, m: string, n: nat, j: nat)
    requires DigitFields(ds)
    requires |ds| <= n
    requires 0 < j
    requires forall k: nat :: !MatchesAt(m, k, n)
    ensures !MatchesAt(FieldsText(ds, m), j, n)
    decreases |ds|, 1
  {
    if |ds| == 0 {
      TailNoLaterMatch(m, n, j);
    } else {
      FieldNoLaterMatch(ds, m, n, j);
    }
  }

  /** After the `:` of `: m`, only a start inside `m` could match. */
  lemma TailNoLaterMatch(m: string, n: nat, j: nat)
    requires 0 < j
    requires forall k: nat :: !MatchesAt(m, k, n)
    ensures !MatchesAt(": " + m, j, n)
  {
    var s := ": " + m;
    if j >= 2 && j <= |s| {
      FieldsAtShift(": ", m, j - 2, n);
      assert !MatchesAt(m, j - 2, n);
    } else if j == 1 {
      assert s[1] == ' ';
    }
  }

  /** After the first `:` of `:d` and the remaining fields, no start matches. */
  lemma {:induction false} FieldNoLaterMatch(ds: seq<string>, m: string, n: nat, j: nat)
    requires DigitFields(ds) && 0 < |ds|
    requires |ds| <= n
    requires 0 < j
    requires forall k: nat :: !MatchesAt(m, k, n)
    ensures !MatchesAt(FieldsText(ds, m), j, n)
    decreases |ds|, 0
  {
    var d := ds[0];
    var x := FieldsText(ds[1..], m);
    var s := ":" + d + x;
    assert FieldsText(ds, m) == s;
    if j <= |d| {
      assert s[j] == d[j - 1];
      assert IsDigit(d[j - 1]);
    } else if j == 1 + |d| {
      FieldsAtTooMany(ds[1..], m, n);
      FieldsAtShift(":" + d, x, 0, n);
    } else if j <= |s| {
      FieldsTextNoLaterMatch(ds[1..], m, n, j - 1 - |d|);
      FieldsAtShift(":" + d, x, j - 1 - |d|, n);
    }
  }

  /**
   * A line made of any newline-free prefix, the digit fields and a plain
   * trailing text is matched with exactly those groups, provided the trailing
   * text holds no match start of its own (the greedy `.*` would take that one).
   */
  lemma FieldsMatchText(pre: string, ds: seq<string>, m: string)
    requires '\n' !in pre
    requires DigitFields(ds) && PlainTail(m)
    requires forall k: nat :: !MatchesAt(m, k, |ds|)
    ensures FieldsMatch(pre + FieldsText(ds, m), |ds|) == Some(Groups(ds, m))
  {
    var x := FieldsText(ds, m);
    var s := pre + x;
    var n := |ds|;
    FieldsTextNoNewline(ds, m);
    assert '\n' !in s;
    FieldsAtText(ds, m);
    FieldsAtShift(pre, x, 0, n);
    PrefixedNoLaterMatch(pre, ds, m);
    RunEndIs(s, 0, |s|, NotNewline);
    FieldsMatchAt(s, n, |pre|);
  }

  lemma PrefixedNoLaterMatch(pre: string, ds: seq<string>, m: string)
    requires DigitFields(ds)
    requires forall k: nat :: !MatchesAt(m, k, |ds|)
    ensures forall j: nat :: |pre| < j < |pre + FieldsText(ds, m)| ==> !MatchesAt(pre + FieldsText(ds, m), j, |ds|)
  {
    var x := FieldsText(ds, m);
    forall j: nat | |pre| < j < |pre + x| ensures !MatchesAt(pre + x, j, |ds|) {
      PrefixedNoMatchAt(pre, ds, m, j - |pre|);
    }
  }

  lemma PrefixedNoMatchAt(pre: string, ds: seq<string>, m: string, i: nat)
    requires DigitFields(ds)
    requires forall k: nat :: !MatchesAt(m, k, |ds|)
    requires 0 < i <= |FieldsText(ds, m)|
    ensures !MatchesAt(pre + FieldsText(ds, m), |pre| + i, |ds|)
  {
    FieldsTextNoLaterMatch(ds, m, |ds|, i);
    FieldsAtShift(pre, FieldsText(ds, m), i, |ds|);
  }

  /** A text without `:` holds no match start. */
  lemma NoColonNoFields(s: string, n: nat)
    requires ':' !in s
    ensures forall k: nat :: !MatchesAt(s, k, n)
  {
  }

  const FALSE_POSITIVE_HEAD: string := "'microbit."
  const FALSE_POSITIVE_TAIL: string := "' imported but unused"

  /** `'microbit.` + a non-empty run of word characters + `' imported but unused`. */
  predicate IsUnusedMicrobitName(m: string) {
    && |FALSE_POSITIVE_HEAD| < |m| - |FALSE_POSITIVE_TAIL|
    && m[..|FALSE_POSITIVE_HEAD|] == FALSE_POSITIVE_HEAD
    && m[|m| - |FALSE_POSITIVE_TAIL|..] == FALSE_POSITIVE_TAIL
    && forall i :: |FALSE_POSITIVE_HEAD| <= i < |m| - |FALSE_POSITIVE_TAIL| ==> IsWordChar(m[i])
  }

  /**
   * EXPAND_FALSE_POSITIVE (mu/logic.py:68), `^'microbit\.(\w+)' imported but unused$`
   * under `re.match`, read character by character; Python's `$` also matches
   * just before a final newline.
   */
  predicate FalsePositivePattern(m: string) {
    || IsUnusedMicrobitName(m)
    || (0 < |m| && m[|m| - 1] == '\n' && IsUnusedMicrobitName(m[..|m| - 1]))
  }

  /**
   * A pyflakes message is a false positive of the expansion exactly when it is
   * the unused-import message about a word-character name of the microbit
   * module, possibly followed by a newline.
   */
  predicate IsFalsePositive(m: string)
    ensures IsFalsePositive(m) <==>
      exists name {:trigger UnusedMicrobitMessage(name)} :: && 0 < |name| && (forall i :: 0 <= i < |name| ==> IsWordChar(name[i]))
                     && (m == UnusedMicrobitMessage(name) || m == UnusedMicrobitMessage(name) + "\n")
  {
    FalsePositiveShape(m);
    UnusedMessagesMatch();
    FalsePositivePattern(m)
  }

  /** The message pyflakes gives for an unused name imported from the microbit module. */
  function UnusedMicrobitMessage(name: string): string {
    FALSE_POSITIVE_HEAD + name + FALSE_POSITIVE_TAIL
  }

  /**
   * Every unused-import message about a word-character name of the microbit
   * module is a false positive, whether or not the expansion introduced it;
   * with a trailing newline too.
   */
  lemma UnusedMicrobitNameIsFalsePositive(name: string)
    requires 0 < |name|
    requires forall i :: 0 <= i < |name| ==> IsWordChar(name[i])
    ensures FalsePositivePattern(UnusedMicrobitMessage(name))
    ensures FalsePositivePattern(UnusedMicrobitMessage(name) + "\n")
  {
    var m := UnusedMicrobitMessage(name);
    assert m[..|FALSE_POSITIVE_HEAD|] == FALSE_POSITIVE_HEAD;
    assert m[|m| - |FALSE_POSITIVE_TAIL|..] == FALSE_POSITIVE_TAIL;
    assert forall i :: |FALSE_POSITIVE_HEAD| <= i < |m| - |FALSE_POSITIVE_TAIL| ==>
      m[i] == name[i - |FALSE_POSITIVE_HEAD|];
    assert (m + "\n")[..|m + "\n"| - 1] == m;
  }

  /** The name between `'microbit.` and `' imported but unused`. */
  function UnusedName(t: string): string
    requires IsUnusedMicrobitName(t)
  {
    t[|FALSE_POSITIVE_HEAD|..|t| - |FALSE_POSITIVE_TAIL|]
  }

  /** A message of the unused-name shape is the message about its name. */
  lemma UnusedNameShape(t: string)
    requires IsUnusedMicrobitName(t)
    ensures 0 < |UnusedName(t)| && forall i :: 0 <= i < |UnusedName(t)| ==> IsWordChar(UnusedName(t)[i])
    ensures t == UnusedMicrobitMessage(UnusedName(t))
  {
    var name := UnusedName(t);
    assert t == t[..|FALSE_POSITIVE_HEAD|] + name + t[|t| - |FALSE_POSITIVE_TAIL|..];
    assert forall i :: 0 <= i < |name| ==> name[i] == t[i + |FALSE_POSITIVE_HEAD|];
  }

  /** The expression matches every such message, with or without a final newline. */
  lemma UnusedMessagesMatch()
    ensures forall name :: 0 < |name| && (forall i :: 0 <= i < |name| ==> IsWordChar(name[i])) ==>
      FalsePositivePattern(UnusedMicrobitMessage(name)) && FalsePositivePattern(UnusedMicrobitMessage(name) + "\n")
  {
    forall name | 0 < |name| && (forall i :: 0 <= i < |name| ==> IsWordChar(name[i])) {
      UnusedMicrobitNameIsFalsePositive(name);
    }
  }

  /** Conversely, every text the expression matches is such a message, possibly followed by a newline. */
  lemma FalsePositiveShape(m: string)
    ensures FalsePositivePattern(m) ==>
      exists name :: && 0 < |name| && (forall i :: 0 <= i < |name| ==> IsWordChar(name[i]))
                     && (m == UnusedMicrobitMessage(name) || m == UnusedMicrobitMessage(name) + "\n")
  {
    if !FalsePositivePattern(m) {
    } else if IsUnusedMicrobitName(m) {
      UnusedNameShape(m);
      assert m == UnusedMicrobitMessage(UnusedName(m));
    } else {
      var t := m[..|m| - 1];
      UnusedNameShape(t);
      assert m == t + "\n";
      assert m == UnusedMicrobitMessage(UnusedName(t)) + "\n";
    }
  }

  /** An unused-import message about another module is kept. */
  lemma OtherModuleIsNotFalsePositive()
    ensures !FalsePositivePattern("'os' imported but unused")
    ensures !FalsePositivePattern("'microbit.' imported but unused")
    ensures !FalsePositivePattern("'microbit.display' imported but unused.")
  {
    var a := "'os' imported but unused";
    assert a[..|FALSE_POSITIVE_HEAD|] != FALSE_POSITIVE_HEAD by {
      assert a[1] != FALSE_POSITIVE_HEAD[1];
    }
    var c := "'microbit.display' imported but unused.";
    assert c[|c| - |FALSE_POSITIVE_TAIL|..] != FALSE_POSITIVE_TAIL by {
      assert c[|c| - 1] != FALSE_POSITIVE_TAIL[|FALSE_POSITIVE_TAIL| - 1];
    }
  }
}

=== FILE: readback.dfy ===
/**
 * The analysers' output read back: a line in the format pycodestyle and
 * pyflakes print is turned into exactly the record it describes.
 */
module Readback {
  import opened Wrappers
  import opened Text
  import opened Patterns
  import opened Diagnostics

  /** `file:line:column: CODE description`, as pycodestyle prints a finding. */
  function StyleOutputLine(file: string, line: nat, column: nat, code: string, description: string): string {
    file + ":" + DecimalString(line) + ":" + DecimalString(column) + ": " + code + " " + description
  }

  /** `file:line: message`, as pyflakes formats a finding. */
  function FlakeOutputLine(file: string, line: nat, message: string): string {
    file + ":" + DecimalString(line) + ": " + message
  }

  /** A pycodestyle code: non-empty, no space, colon, newline or leading white space. */
  predicate IsStyleCode(code: string) {
    0 < |code| && ' ' !in code && ':' !in code && '\n' !in code && !IsSpace(code[0])
  }

  lemma OneFieldText(a: string, m: string)
    ensures FieldsText([a], m) == ":" + a + ": " + m
  {
    assert [a][1..] == [];
    assert FieldsText([a][1..], m) == ": " + m;
  }

  lemma TwoFieldsText(a: string, b: string, m: string)
    ensures FieldsText([a, b], m) == ":" + a + ":" + b + ": " + m
  {
    assert [a, b][1..] == [b];
    OneFieldText(b, m);
    assert FieldsText([a, b], m) == ":" + a + FieldsText([b], m);
  }

  /** The regular expression picks out line, column and the rest of a printed finding. */
  lemma StyleMatchReadsBack(file: string, line: nat, column: nat, code: string, description: string)
    requires '\n' !in file
    requires IsStyleCode(code)
    requires '\n' !in description && forall k: nat :: !MatchesAt(code + " " + description, k, 2)
    ensures StyleMatch(StyleOutputLine(file, line, column, code, description)) ==
      Some(Groups([DecimalString(line), DecimalString(column)], code + " " + description))
  {
    var ds := [DecimalString(line), DecimalString(column)];
    var m := code + " " + description;
    StyleOutputFields(file, line, column, code, description);
    FieldsMatchText(file, ds, m);
  }

  /** The printed line and column are two digit fields. */
  lemma DecimalFields(line: nat, column: nat)
    ensures DigitFields([DecimalString(line), DecimalString(column)])
  {
  }

  /** A printed finding is its file name followed by the text of its two fields. */
  lemma StyleOutputFields(file: string, line: nat, column: nat, code: string, description: string)
    requires IsStyleCode(code)
    requires '\n' !in description && forall k: nat :: !MatchesAt(code + " " + description, k, 2)
    ensures var ds := [DecimalString(line), DecimalString(column)];
      var m := code + " " + description;
      && StyleOutputLine(file, line, column, code, description) == file + FieldsText(ds, m)
      && DigitFields(ds) && PlainTail(m) && forall k: nat :: !MatchesAt(m, k, |ds|)
  {
    var a, b := DecimalString(line), DecimalString(column);
    var m := code + " " + description;
    DecimalFields(line, column);
    assert m[0] == code[0];
    TwoFieldsText(a, b, m);
  }

  /** The parse loop's reading of a matched line, field by field. */
  lemma StyleLineOfMatch(s: string, g: Groups, code: string, description: string)
    requires StyleMatch(s) == Some(g)
    requires SplitOnce(g.rest, ' ') == Some((code, description))
    ensures StyleLine(s).Parsed? && StyleLine(s).d.StyleProblem?
    ensures StyleLine(s).d.line == DecimalValue(g.numbers[0]) - 1
    ensures StyleLine(s).d.column == DecimalValue(g.numbers[1]) - 1
    ensures StyleLine(s).d.message == Capitalize(Described(code, description))
    ensures StyleLine(s).d.code == code
  {
  }

  /**
   * A finding printed by pycodestyle is parsed into its record: line and
   * column become 0-based, the description is capitalized (with the E303
   * suffix) and the code is kept.
   */
  lemma StyleLineReadsBack(file: string, line: nat, column: nat, code: string, description: string)
    requires '\n' !in file
    requires IsStyleCode(code)
    requires '\n' !in description && forall k: nat :: !MatchesAt(code + " " + description, k, 2)
    ensures var p := StyleLine(StyleOutputLine(file, line, column, code, description));
      && p.Parsed? && p.d.StyleProblem?
      && p.d.line == line - 1 && p.d.column == column - 1
      && p.d.message == Capitalize(Described(code, description)) && p.d.code == code
  {
    var s := StyleOutputLine(file, line, column, code, description);
    StyleMatchReadsBack(file, line, column, code, description);
    var g := StyleMatch(s).value;
    DecimalRoundTrip(line);
    DecimalRoundTrip(column);
    assert code + " " + description == code + [' '] + description;
    SplitOnceAt(code, ' ', description);
    StyleLineOfMatch(s, g, code, description);
  }

  /** An E303 finding (too many blank lines) says the blank lines are above the reported line. */
  lemma BlankLinesFinding(file: string, line: nat, column: nat, description: string)
    requires '\n' !in file
    requires '\n' !in description && forall k: nat :: !MatchesAt("E303 " + description, k, 2)
    ensures var p := StyleLine(StyleOutputLine(file, line, column, "E303", description));
      && p.Parsed? && p.d.code == "E303" && p.d.line == line - 1 && p.d.column == column - 1
      && p.d.message == Capitalize(description + " above this line")
  {
    assert IsStyleCode("E303");
    assert "E303" + " " + description == "E303 " + description;
    StyleLineReadsBack(file, line, column, "E303", description);
  }

  /** A message pyflakes formats is recorded with its 0-based line, column 0 and the message text. */
  lemma FlakeRecordReadsBack(file: string, line: nat, message: string)
    requires '\n' !in file
    requires PlainTail(message) && forall k: nat :: !MatchesAt(message, k, 1)
    ensures Record(FlakeCall(FlakeOutputLine(file, line, message))) == FlakeProblem(line - 1, 0, message)
  {
    var a := DecimalString(line);
    OneFieldText(a, message);
    assert FlakeOutputLine(file, line, message) == file + FieldsText([a], message);
    FieldsMatchText(file, [a], message);
    DecimalRoundTrip(line);
  }

  /**
   * A printed location followed by a single word, with no space after it,
   * matches the expression but cannot be split into code and description:
   * the line is malformed and the whole parse aborts.
   */
  lemma StyleLineWithoutDescription(file: string, line: nat, column: nat, word: string)
    requires '\n' !in file
    requires IsStyleCode(word)
    ensures StyleLine(file + ":" + DecimalString(line) + ":" + DecimalString(column) + ": " + word).Malformed?
  {
    var a, b := DecimalString(line), DecimalString(column);
    var s := file + ":" + a + ":" + b + ": " + word;
    DecimalFields(line, column);
    MatchWithoutDescription(file, a, b, word);
    StyleLineOfNoSpace(s, Groups([a, b], word));
  }

  lemma MatchWithoutDescription(file: string, a: string, b: string, word: string)
    requires '\n' !in file
    requires DigitFields([a, b]) && IsStyleCode(word)
    ensures StyleMatch(file + ":" + a + ":" + b + ": " + word) == Some(Groups([a, b], word))
  {
    NoColonNoFields(word, 2);
    TwoFieldsText(a, b, word);
    assert file + ":" + a + ":" + b + ": " + word == file + FieldsText([a, b], word);
    FieldsMatchText(file, [a, b], word);
  }

  lemma StyleLineOfNoSpace(s: string, g: Groups)
    requires StyleMatch(s) == Some(g)
    requires ' ' !in g.rest
    ensures StyleLine(s).Malformed?
  {
  }

  /** A pyflakes message without any `:` is recorded whole on line 0. */
  lemma FlakeRecordWithoutLocation(message: string)
    requires ':' !in message
    ensures Record(FlakeCall(message)) == FlakeProblem(0, 0, message)
  {
    NoColonNoFields(message, 1);
  }
}

=== FILE: session.dfy ===
/**
 * The serial line shared by the REPL and the file-system navigator: the
 * REPL port name and the add / remove / toggle operations of the editor,
 * as steps on the pair of fields `repl` and `fs`.
 */
module SerialSession {
  import opened Wrappers
  import opened Boards

  /** The host platform, as `os.name` reports it. */
  datatype Os = Posix | Nt | OtherOs

  /** `NotImplementedError('OS not supported.')`. */
  datatype PortError = OsNotSupported

  const DEVICE_DIRECTORY: string := "/dev/"

  /**
   * `REPL.__init__`: the port a REPL is opened on. On POSIX systems it is the
   * device node of the named port, on Windows the name itself; any other
   * platform is refused.
   */
  function ReplPort(os: Os, name: string): (r: Result<string, PortError>)
    ensures r.Success? <==> os != OtherOs
    ensures r.Success? ==> |name| <= |r.value| && r.value[|r.value| - |name|..] == name
    ensures os == Posix ==>
      && r.Success? && |r.value| == |DEVICE_DIRECTORY| + |name|
      && r.value[..|DEVICE_DIRECTORY|] == DEVICE_DIRECTORY
    ensures os == Nt ==> r.Success? && |r.value| == |name|
  {
    match os
    case Posix => Success(DEVICE_DIRECTORY + name)
    case Nt => Success(name)
    case OtherOs => Failure(OsNotSupported)
  }

  /** Different ports never share a REPL port name. */
  lemma ReplPortInjective(os: Os, a: string, b: string)
    requires ReplPort(os, a).Success? && ReplPort(os, a) == ReplPort(os, b)
    ensures a == b
  {
    var p := ReplPort(os, a).value;
    assert a == p[|p| - |a|..];
    assert b == p[|p| - |b|..];
  }

  /** The two fields of the editor that claim the serial line; `fs` is `True` or `None`. */
  datatype Session = Session(repl: Option<string>, fs: bool)

  const IDLE: Session := Session(None, false)

  /** At most one of the REPL and the file system holds the serial line. */
  predicate Exclusive(s: Session) {
    !(s.repl.Some? && s.fs)
  }

  /** What `view.add_repl` does with a freshly made REPL. */
  datatype ReplView = Shown | ViewIOError(text: string) | ViewOtherError

  /**
   * The device-dependent inputs of one operation: whether
   * `microfs.get_serial` finds a device, the ports the enumerator lists, the
   * host platform and the behaviour of the view when the REPL is added.
   */
  datatype Device = Device(serialFound: bool, ports: seq<SerialPort>, os: Os, view: ReplView)

  /** The advice shown under a message; each names one of the information texts of the source. */
  datatype Advice = PlugInForFs | PlugInForRepl | PressReset | ToggleReplOff | ToggleFsOff

  const NO_DEVICE: string := "Could not find an attached BBC micro:bit."
  const FS_CONFLICT: string := "File system and REPL cannot work at the same time."
  const REPL_CONFLICT: string := "REPL and file system cannot work at the same time."

  /** The visible result of one operation. */
  datatype Effect =
    | Silent
    | Message(message: string, advice: Advice)
    | FilesystemShown
    | FilesystemHidden
    | ReplShown(port: string)
    | ReplHidden
    | ErrorLogged

  /** An operation either completes with a new session and an effect, or raises `RuntimeError`. */
  datatype Outcome = Done(session: Session, effect: Effect) | Raised(reason: string)

  /** `Editor.add_fs`: only with no REPL and no file system, and only if a device answers. */
  function AddFs(s: Session, d: Device): (r: Outcome)
    ensures r.Done? && r.session.repl == s.repl
    ensures r.session.fs <==> s.fs || (s.repl.None? && d.serialFound)
    ensures s.repl.Some? ==> r == Done(s, Silent)
    ensures Exclusive(s) ==> Exclusive(r.session)
  {
    if s.repl.None? then
      if !s.fs then
        if d.serialFound then Done(s.(fs := true), FilesystemShown)
        else Done(s, Message(NO_DEVICE, PlugInForFs))
      else Done(s, Silent)
    else Done(s, Silent)
  }

  /** `Editor.remove_fs`: raises when no file system is shown. */
  function RemoveFs(s: Session): (r: Outcome)
    ensures r.Raised? <==> !s.fs
    ensures r.Done? ==> r.session == Session(s.repl, false)
  {
    if !s.fs then Raised("File system not running")
    else Done(s.(fs := false), FilesystemHidden)
  }

  /** `Editor.toggle_fs`: flips the file system, or explains the conflict when a REPL is open. */
  function ToggleFs(s: Session, d: Device): (r: Outcome)
    ensures r.Done?
    ensures s.repl.Some? ==> r == Done(s, Message(FS_CONFLICT, ToggleReplOff))
    ensures s.repl.None? ==> r.session == Session(None, !s.fs && d.serialFound)
  {
    if s.repl.None? then
      if !s.fs then AddFs(s, d) else RemoveFs(s)
    else Done(s, Message(FS_CONFLICT, ToggleReplOff))
  }

  /**
   * `Editor.add_repl`. It raises when the file system is shown or a REPL is
   * already open. Otherwise it looks for a board; a REPL is recorded when the
   * board is found, the platform is supported and the view does not raise an
   * I/O error (a view that raises anything else leaves the REPL recorded).
   */
  function AddRepl(s: Session, d: Device): (r: Outcome)
    ensures r.Raised? <==> s.fs || s.repl.Some?
    ensures r.Done? ==> !r.session.fs
    ensures r.Done? ==> (r.session.repl.Some? <==>
      && FindBoard(d.ports).Some? && FindBoard(d.ports).value != ""
      && d.os != OtherOs && !d.view.ViewIOError?)
    ensures r.Done? && r.session.repl.Some? ==>
      r.session.repl.value == ReplPort(d.os, FindBoard(d.ports).value).value
  {
    if s.fs then Raised("File system already connected")
    else if s.repl.Some? then Raised("REPL already running")
    else
      match FindBoard(d.ports)
      case None => Done(s, Message(NO_DEVICE, PlugInForRepl))
      case Some(name) =>
        if name == "" then Done(s, Message(NO_DEVICE, PlugInForRepl))
        else
          match ReplPort(d.os, name)
          case Failure(_) => Done(s, ErrorLogged)
          case Success(port) =>
            match d.view
            case Shown => Done(s.(repl := Some(port)), ReplShown(port))
            case ViewIOError(text) => Done(s.(repl := None), Message(text, PressReset))
            case ViewOtherError => Done(s.(repl := Some(port)), ErrorLogged)
  }

  /** `Editor.remove_repl`: raises when no REPL is open. */
  function RemoveRepl(s: Session): (r: Outcome)
    ensures r.Raised? <==> s.repl.None?
    ensures r.Done? ==> r.session == Session(None, s.fs)
  {
    if s.repl.None? then Raised("REPL not running")
    else Done(s.(repl := None), ReplHidden)
  }

  /** `Editor.toggle_repl`: opens or closes the REPL, or explains the conflict when the file system is shown. */
  function ToggleRepl(s: Session, d: Device): (r: Outcome)
    ensures r.Done?
    ensures s.fs ==> r == Done(s, Message(REPL_CONFLICT, ToggleFsOff))
    ensures !s.fs && s.repl.Some? ==> r.session == IDLE
    ensures !s.fs && s.repl.None? ==> r == AddRepl(s, d)
  {
    if !s.fs then
      if s.repl.None? then AddRepl(s, d) else RemoveRepl(s)
    else Done(s, Message(REPL_CONFLICT, ToggleFsOff))
  }

  /** The editor calls on the serial line. */
  datatype Request = AddFsRequest | RemoveFsRequest | ToggleFsRequest
                   | AddReplRequest | RemoveReplRequest | ToggleReplRequest

  function Perform(s: Session, q: Request, d: Device): Outcome {
    match q
    case AddFsRequest => AddFs(s, d)
    case RemoveFsRequest => RemoveFs(s)
    case ToggleFsRequest => ToggleFs(s, d)
    case AddReplRequest => AddRepl(s, d)
    case RemoveReplRequest => RemoveRepl(s)
    case ToggleReplRequest => ToggleRepl(s, d)
  }

  /** The session after one call; a call that raises changes nothing. */
  function Step(s: Session, q: Request, d: Device): Session {
    match Perform(s, q, d)
    case Done(next, _) => next
    case Raised(_) => s
  }

  /** The session after a run of calls, each with the device as it was at that moment. */
  function Run(s: Session, calls: seq<(Request, Device)>): Session
    decreases |calls|
  {
    if |calls| == 0 then s
    else Run(Step(s, calls[0].0, calls[0].1), calls[1..])
  }

  /** Every call keeps the REPL and the file system apart. */
  lemma StepKeepsExclusive(s: Session, q: Request, d: Device)
    requires Exclusive(s)
    ensures Exclusive(Step(s, q, d))
  {
  }

  /**
   * Over any run of calls the REPL and the file system are never both
   * active: not at the end, and not after any prefix of the run.
   */
  lemma {:induction false} RunKeepsExclusive(s: Session, calls: seq<(Request, Device)>)
    requires Exclusive(s)
    ensures forall k :: 0 <= k <= |calls| ==> Exclusive(Run(s, calls[..k]))
    decreases |calls|
  {
    if |calls| > 0 {
      var next := Step(s, calls[0].0, calls[0].1);
      StepKeepsExclusive(s, calls[0].0, calls[0].1);
      RunKeepsExclusive(next, calls[1..]);
      forall k | 0 <= k <= |calls| ensures Exclusive(Run(s, calls[..k])) {
        if k > 0 {
          assert calls[..k][1..] == calls[1..][..k - 1];
        }
      }
    }
  }

  /** Toggling never raises, whatever the state. */
  lemma TogglesNeverRaise(s: Session, d: Device)
    ensures ToggleFs(s, d).Done? && ToggleRepl(s, d).Done?
  {
  }

  /** With a device answering, toggling the file system twice from a free line restores the session. */
  lemma ToggleFsTwice(d: Device)
    requires d.serialFound
    ensures ToggleFs(IDLE, d) == Done(Session(None, true), FilesystemShown)
    ensures ToggleFs(ToggleFs(IDLE, d).session, d) == Done(IDLE, FilesystemHidden)
  {
  }

  /** With a supported board that the view shows, toggling the REPL twice restores the session. */
  lemma ToggleReplTwice(d: Device, port: string)
    requires FindBoard(d.ports).Some? && FindBoard(d.ports).value != ""
    requires d.os != OtherOs && d.view == Shown
    requires port == ReplPort(d.os, FindBoard(d.ports).value).value
    ensures ToggleRepl(IDLE, d) == Done(Session(Some(port), false), ReplShown(port))
    ensures ToggleRepl(ToggleRepl(IDLE, d).session, d) == Done(IDLE, ReplHidden)
  {
  }

  /** Starting either side while the other holds the line changes nothing. */
  lemma ConflictsChangeNothing(s: Session, d: Device)
    ensures s.repl.Some? ==> Step(s, ToggleFsRequest, d) == s && Step(s, AddFsRequest, d) == s
    ensures s.fs ==> Step(s, ToggleReplRequest, d) == s && Step(s, AddReplRequest, d) == s
  {
  }

  /** Without a supported board the REPL is not opened and the user is told so. */
  lemma AddReplWithoutBoard(s: Session, d: Device)
    requires !s.fs && s.repl.None?
    requires forall i :: 0 <= i < |d.ports| ==> !IsKnownBoard(d.ports[i])
    ensures AddRepl(s, d) == Done(s, Message(NO_DEVICE, PlugInForRepl))
  {
  }
}

=== FILE: text.dfy ===
/**
 * String helpers with the semantics of the Python built-ins the editor uses:
 * character classes of the `re` module, `int()` on digit strings,
 * `str.split`, `str.replace`, the `in` operator on strings and
 * `str.capitalize`.
 */
module Text {
  import opened Wrappers

  /** `\d` of Python's `re`, restricted to ASCII digits. */
  predicate IsDigit(c: char) {
    '0' <= c <= '9'
  }

  /** `\s` of Python's `re` on `str` patterns: the characters `str.isspace` accepts. */
  predicate IsSpace(c: char) {
    || c == ' ' || c == '\t' || c == '\n' || c == '\r'
    || c == '\U{000B}' || c == '\U{000C}'
    || '\U{001C}' <= c <= '\U{001F}'
    || c == '\U{0085}' || c == '\U{00A0}' || c == '\U{1680}'
    || '\U{2000}' <= c <= '\U{200A}'
    || c == '\U{2028}' || c == '\U{2029}' || c == '\U{202F}'
    || c == '\U{205F}' || c == '\U{3000}'
  }

  /** `\w` of Python's `re`, restricted to ASCII. */
  predicate IsWordChar(c: char) {
    'a' <= c <= 'z' || 'A' <= c <= 'Z' || IsDigit(c) || c == '_'
  }

  predicate NotNewline(c: char) {
    c != '\n'
  }

  predicate AllDigits(s: string) {
    forall i :: 0 <= i < |s| ==> IsDigit(s[i])
  }

  function DigitValue(c: char): (v: nat)
    requires IsDigit(c)
    ensures v < 10
  {
    c as int - '0' as int
  }

  function DigitChar(v: nat): (c: char)
    requires v < 10
    ensures IsDigit(c) && DigitValue(c) == v
  {
    ('0' as int + v) as char
  }

  /** `int(s)` for a string of digits (leading zeros allowed). */
  function DecimalValue(s: string): nat
    requires AllDigits(s)
    decreases |s|
  {
    if |s| == 0 then 0 else 10 * DecimalValue(s[..|s| - 1]) + DigitValue(s[|s| - 1])
  }

  /** `str(n)` for a natural number: its shortest decimal spelling. */
  function DecimalString(n: nat): (s: string)
    ensures 0 < |s| && AllDigits(s)
    ensures n >= 10 ==> s[0] != '0'
    decreases n
  {
    if n < 10 then [DigitChar(n)] else DecimalString(n / 10) + [DigitChar(n % 10)]
  }

  /** `int(str(n)) == n`. */
  lemma {:induction false} DecimalRoundTrip(n: nat)
    ensures DecimalValue(DecimalString(n)) == n
    decreases n
  {
    if n >= 10 {
      var s := DecimalString(n);
      assert s[..|s| - 1] == DecimalString(n / 10);
      DecimalRoundTrip(n / 10);
    }
  }

  /** The position of the first `c` in `s`, as `str.find` reports it. */
  function IndexOf(s: string, c: char): (r: Option<nat>)
    ensures r.None? <==> c !in s
    ensures r.Some? ==> r.value < |s| && s[r.value] == c && c !in s[..r.value]
    decreases |s|
  {
    if |s| == 0 then None
    else if s[0] == c then Some(0)
    else match IndexOf(s[1..], c)
      case None => None
      case Some(i) =>
        assert s[1..][..i] == s[1..i + 1];
        Some(i + 1)
  }

  /** `s.split(c, 1)` when it yields two parts; None when `c` does not occur. */
  function SplitOnce(s: string, c: char): (r: Option<(string, string)>)
    ensures r.None? <==> c !in s
    ensures r.Some? ==> s == r.value.0 + [c] + r.value.1 && c !in r.value.0
  {
    match IndexOf(s, c)
    case None => None
    case Some(i) =>
      assert s == s[..i] + [c] + s[i + 1..];
      Some((s[..i], s[i + 1..]))
  }

  /** The first separator of `a + [c] + b` is the one after a separator-free `a`. */
  lemma IndexOfAfter(a: string, c: char, b: string)
    requires c !in a
    ensures IndexOf(a + [c] + b, c) == Some(|a|)
    ensures (a + [c] + b)[..|a|] == a && (a + [c] + b)[|a| + 1..] == b
  {
    var s := a + [c] + b;
    assert s[|a|] == c;
    assert s[..|a|] == a;
  }

  /** Splitting at the first separator recovers the separator-free head and the rest. */
  lemma SplitOnceAt(a: string, c: char, b: string)
    requires c !in a
    ensures SplitOnce(a + [c] + b, c) == Some((a, b))
  {
    IndexOfAfter(a, c, b);
  }

  /** `c.join(parts)`. */
  function Join(parts: seq<string>, c: char): string
    requires 0 < |parts|
    decreases |parts|
  {
    if |parts| == 1 then parts[0] else parts[0] + [c] + Join(parts[1..], c)
  }

  /** `s.split(c)`: every piece between separators, including empty ones. */
  function Split(s: string, c: char): (parts: seq<string>)
    ensures 0 < |parts|
    decreases |s|
  {
    match IndexOf(s, c)
    case None => [s]
    case Some(i) => [s[..i]] + Split(s[i + 1..], c)
  }

  /** No piece of a split holds the separator. */
  lemma {:induction false} SplitPieces(s: string, c: char)
    ensures forall i :: 0 <= i < |Split(s, c)| ==> c !in Split(s, c)[i]
    decreases |s|
  {
    match IndexOf(s, c)
    case None =>
    case Some(i) =>
      SplitPieces(s[i + 1..], c);
  }

  /** Joining the pieces of a split gives the original text back. */
  lemma {:induction false} JoinSplit(s: string, c: char)
    ensures Join(Split(s, c), c) == s
    decreases |s|
  {
    match IndexOf(s, c)
    case None =>
    case Some(i) =>
      JoinSplit(s[i + 1..], c);
      assert s == s[..i] + [c] + s[i + 1..];
  }

  /** Splitting a join of separator-free pieces gives the pieces back. */
  lemma {:induction false} SplitJoin(parts: seq<string>, c: char)
    requires 0 < |parts|
    requires forall i :: 0 <= i < |parts| ==> c !in parts[i]
    ensures Split(Join(parts, c), c) == parts
    decreases |parts|
  {
    if |parts| > 1 {
      IndexOfAfter(parts[0], c, Join(parts[1..], c));
      SplitJoin(parts[1..], c);
    }
  }

  /** `p` occurs in `s` starting at index `i`. */
  predicate OccursAt(s: string, p: string, i: nat) {
    i + |p| <= |s| && s[i..i + |p|] == p
  }

  /** Python's `p in s` for strings. */
  predicate Contains(s: string, p: string) {
    exists i: nat | i <= |s| :: OccursAt(s, p, i)
  }

  /** The leftmost occurrence of `p` in `s` at or after `from`. */
  function FindFrom(s: string, p: string, from: nat): (r: Option<nat>)
    requires from <= |s|
    ensures r.None? <==> forall j: nat :: from <= j <= |s| ==> !OccursAt(s, p, j)
    ensures r.Some? ==> from <= r.value && OccursAt(s, p, r.value)
    ensures r.Some? ==> forall j: nat :: from <= j < r.value ==> !OccursAt(s, p, j)
    decreases |s| - from
  {
    if OccursAt(s, p, from) then Some(from)
    else if from == |s| then None
    else FindFrom(s, p, from + 1)
  }

  /** The leftmost occurrence of `p` in `s`. */
  function FindFirst(s: string, p: string): (r: Option<nat>)
    ensures r.None? <==> !Contains(s, p)
    ensures r.Some? ==> OccursAt(s, p, r.value)
    ensures r.Some? ==> forall j: nat :: j < r.value ==> !OccursAt(s, p, j)
  {
    FindFrom(s, p, 0)
  }

  /** `s.replace(p, r)`: every non-overlapping occurrence, scanned left to right. */
  function ReplaceAll(s: string, p: string, r: string): string
    requires 0 < |p|
    decreases |s|
  {
    match FindFirst(s, p)
    case None => s
    case Some(i) => s[..i] + r + ReplaceAll(s[i + |p|..], p, r)
  }

  /** A text without the pattern is left as it is. */
  lemma ReplaceAllAbsent(s: string, p: string, r: string)
    requires 0 < |p| && !Contains(s, p)
    ensures ReplaceAll(s, p, r) == s
  {
  }

  /**
   * When the last character of `p` never occurs in `r` and the last character
   * of `r` never occurs in `p`, no occurrence of `p` straddles or lies in a
   * copy of `r` placed between two texts free of `p`.
   */
  lemma NoOccurrenceAround(g: string, r: string, rest: string, p: string)
    requires 0 < |p| && 0 < |r|
    requires p[|p| - 1] !in r
    requires r[|r| - 1] !in p
    requires !Contains(g, p) && !Contains(rest, p)
    ensures !Contains(g + r + rest, p)
  {
    var t := g + r + rest;
    forall j: nat | j <= |t| && j + |p| <= |t| ensures !OccursAt(t, p, j) {
      var last := j + |p| - 1;
      if last < |g| {
        assert g[j..j + |p|] == t[j..j + |p|];
        assert !OccursAt(g, p, j);
      } else if last < |g| + |r| {
        // the last character of p would lie inside r
        assert t[last] == r[last - |g|];
        assert t[j..j + |p|][|p| - 1] != p[|p| - 1];
      } else if j < |g| + |r| {
        // the last character of r would lie inside p
        var k := |g| + |r| - 1 - j;
        assert t[j + k] == r[|r| - 1];
        assert t[j..j + |p|][k] != p[k];
      } else {
        var o := j - |g| - |r|;
        assert o + |p| <= |rest|;
        assert rest[o..o + |p|] == t[j..j + |p|];
        assert !OccursAt(rest, p, o);
      }
    }
  }

  /** The replacement of the leftmost occurrence, followed by the replacement in the rest. */
  lemma ReplaceAllAt(s: string, p: string, r: string, i: nat)
    requires 0 < |p| && FindFirst(s, p) == Some(i)
    ensures i + |p| <= |s|
    ensures ReplaceAll(s, p, r) == s[..i] + r + ReplaceAll(s[i + |p|..], p, r)
  {
  }

  /**
   * A pattern whose last character occurs nowhere else in it cannot start
   * inside a pattern-free `a` and end inside a copy of itself placed after `a`.
   */
  lemma NoOccurrenceBefore(a: string, p: string, b: string, j: nat)
    requires 0 < |p| && p[|p| - 1] !in p[..|p| - 1]
    requires !Contains(a, p)
    requires j < |a|
    ensures !OccursAt(a + p + b, p, j)
  {
    var s := a + p + b;
    if j + |p| <= |a| {
      assert a[j..j + |p|] == s[j..j + |p|];
      assert !OccursAt(a, p, j);
    } else {
      // the last character of such an occurrence would be an earlier character of p
      var k := j + |p| - 1 - |a|;
      assert s[j + |p| - 1] == p[k];
      assert p[..|p| - 1][k] == p[k];
      assert s[j..j + |p|][|p| - 1] != p[|p| - 1];
    }
  }

  /**
   * One occurrence of `p` between two pattern-free texts is replaced in
   * place, and nothing else changes.
   */
  lemma ReplaceAllOne(a: string, p: string, b: string, r: string)
    requires 0 < |p| && p[|p| - 1] !in p[..|p| - 1]
    requires !Contains(a, p) && !Contains(b, p)
    ensures ReplaceAll(a + p + b, p, r) == a + r + b
  {
    var s := a + p + b;
    assert s[|a|..|a| + |p|] == p;
    assert OccursAt(s, p, |a|);
    var f := FindFirst(s, p);
    assert f.Some? && f.value <= |a|;
    if f.value < |a| {
      NoOccurrenceBefore(a, p, b, f.value);
    }
    ReplaceAllAt(s, p, r, |a|);
    assert s[..|a|] == a;
    assert s[|a| + |p|..] == b;
    ReplaceAllAbsent(b, p, r);
  }

  /** A text that holds the pattern holds the replacement once it is replaced. */
  lemma ReplaceAllInserts(s: string, p: string, r: string)
    requires 0 < |p| && Contains(s, p)
    ensures Contains(ReplaceAll(s, p, r), r)
  {
    var i := FindFirst(s, p).value;
    ReplaceAllAt(s, p, r, i);
    var rest := ReplaceAll(s[i + |p|..], p, r);
    assert (s[..i] + r + rest)[i..i + |r|] == r;
    assert OccursAt(s[..i] + r + rest, r, i);
  }

  /** The text before the leftmost occurrence holds no occurrence. */
  lemma NothingBeforeFirst(s: string, p: string, i: nat)
    requires 0 < |p| && FindFirst(s, p) == Some(i)
    ensures !Contains(s[..i], p)
  {
    var g := s[..i];
    forall j: nat | j <= |g| ensures !OccursAt(g, p, j) {
      if OccursAt(g, p, j) {
        assert s[j..j + |p|] == g[j..j + |p|];
        assert OccursAt(s, p, j);
      }
    }
  }

  /**
   * When the last character of `p` never occurs in `r` and the last character
   * of `r` never occurs in `p`, the replacement leaves no occurrence of `p`.
   */
  lemma {:induction false} ReplaceAllRemoves(s: string, p: string, r: string)
    requires 0 < |p| && 0 < |r|
    requires p[|p| - 1] !in r
    requires r[|r| - 1] !in p
    ensures !Contains(ReplaceAll(s, p, r), p)
    decreases |s|
  {
    var f := FindFirst(s, p);
    if f.Some? {
      var i := f.value;
      var rest := ReplaceAll(s[i + |p|..], p, r);
      ReplaceAllAt(s, p, r, i);
      NothingBeforeFirst(s, p, i);
      ReplaceAllRemoves(s[i + |p|..], p, r);
      NoOccurrenceAround(s[..i], r, rest, p);
    }
  }

  function LowerChar(c: char): char {
    if 'A' <= c <= 'Z' then (c as int + 32) as char else c
  }

  function UpperChar(c: char): char {
    if 'a' <= c <= 'z' then (c as int - 32) as char else c
  }

  /** `s.capitalize()`: first character upper-case, every other lower-case. */
  function Capitalize(s: string): (t: string)
    ensures |t| == |s|
    ensures 0 < |s| ==> t[0] == UpperChar(s[0]) && !('a' <= t[0] <= 'z')
    ensures forall i :: 0 < i < |s| ==> t[i] == LowerChar(s[i]) && !('A' <= t[i] <= 'Z')
  {
    seq(|s|, i requires 0 <= i < |s| => if i == 0 then UpperChar(s[0]) else LowerChar(s[i]))
  }
}

=== FILE: wrappers.dfy ===
/** Failure-carrying result types shared by the other modules. */
module Wrappers {

  /** Python's `None` or a value. */
  datatype Option<+T> = None | Some(value: T)

  /** The value of a computation, or the exception it raised. */
  datatype Result<+T, +E> = Success(value: T) | Failure(error: E)
}
